=== FILE: README.md ===
# Tree plugin: synchronisation, graph extraction and context menu

A Dafny model of the logic inside the Blazor `Tree` component of the
cortex diary tree plugin. The component shows a live list of root neurons
fetched from a remote avatar and keeps that list up to date by polling.
From the tree it also derives the node/link graph that the browser draws.
Around the tree sits a small context menu (New, Edit, Delete, AddRelative)
that decides which mutations are currently offered.

Modules, one per concern of the component:

- `Wrappers`: `Option`, for a value that may be missing (a null reference, a fetch that threw).
- `Neurons`: the neuron record, its terminal (relation) payload, and the
  rendered tree node that owns its children.
- `Sync`: the ordered fetch (reversed for bottom-to-top rendering), the timer
  tick that appends newly arrived neurons, the full reload, and the
  render-direction toggle.
- `Graph`: `ExtractNodes` and its siblings-first traversal, the distinct-node
  pass of `LoadGraph`, and `ExtractLinks` with its typed, pair-deduplicated
  links.
- `ContextMenu`: the change-only `SelectedOption` setter, the change handler,
  `Helper.ReinitializeOption` and the routing of `ConfirmDelete`.
- `ShareUrl`: `BuildAvatarUrl`.

Remote calls are inputs. The fetched records are `Option<seq<Neuron>>`,
with `None` when the query threw. The parsed avatar address is
`Option<string>`, with `None` when `QueryUrl.TryParse` fails. Whether the
deactivation call succeeded is a `bool`. `UrlEncode` is a function parameter.
The request to play the alert sound is a boolean output of the tick.

Behaviour of the code that the model keeps as written:

- The traversal is siblings-first, not pre-order. All children of a level
  come first, then each child's subtree in turn, so `A{A1}, B{B1}` is visited
  as `A, B, A1, B1`.
- Link types are the plain concatenations `fullinhibit`, `fullexcite`,
  `partialinhibit` and `partialexcite`.
- A link whose endpoint id is unknown is kept with index -1. It is neither
  dropped nor treated as an error. `MissingEndpointMeansUnvisitedId` shows
  this happens only when that id occurs nowhere in the tree. Traversal order
  plays no part, because every node is collected before any link is resolved.
- The tick has no re-entry guard and no staleness check against a
  concurrent reload.
- A tick appends only records that come after the last occurrence of the
  last rendered id in the ordered fetch (the remote order, reversed for
  bottom-to-top). Any other new record is never appended by a tick; it
  appears only after a reload. Top to bottom, this is a record the remote
  adds at its front. Bottom to top, it is a record the remote adds at its
  end, while one added at its front is appended.
- The alert-sound call is awaited before the arrivals are counted and
  appended, inside the same try block. If that call throws, the tick is
  dropped. While the counter is 0 and the call keeps throwing, no tick ever
  appends anything.

## Model

| member | source | states |
|---|---|---|
| `Sync.ToggleRenderDirection` | src/main/Tree.razor.cs:85-92 | the toggle always switches to the other direction |
| `Sync.ToggleTwiceIsIdentity` | src/main/Tree.razor.cs:87-89 | toggling twice restores the direction |
| `Sync.Ordered` | src/main/Tree.razor.cs:239-250 | top-to-bottom keeps the fetch order; bottom-to-top puts element `i` at position `n-1-i` |
| `Sync.Cursor` | src/main/Tree.razor.cs:212-213 | the cursor is -1 or an index of the ordered fetch holding the last rendered root's id, and no later index holds that id |
| `Sync.Arrivals` | src/main/Tree.razor.cs:212-214 | the records a tick would append: at most as many as were fetched, none with an id already rendered (exact membership and order in `Sync.SelectNewFromExactlyQualifying` and `Sync.PollAppendsInFetchedOrder`) |
| `Sync.FindLastIndex` | src/main/Tree.razor.cs:213 | the cursor is -1 or an index holding the id, and no later index holds it |
| `Sync.SelectNewFrom` | src/main/Tree.razor.cs:214 | at most one record per index from the start on, and no selected record's id was rendered before the tick |
| `Sync.QualifyingIndices` | src/main/Tree.razor.cs:214 | strictly increasing indices, each after the cursor with an id not rendered before the tick, and every such index is included |
| `Sync.SelectNewFromIsIndexed` | src/main/Tree.razor.cs:214 | the selection is the records at the qualifying indices in increasing index order, so fetch order and repeated records are kept |
| `Sync.SelectNewFromExactlyQualifying` | src/main/Tree.razor.cs:214 | a record is selected iff it sits at a qualifying index, and the selection is empty iff no index qualifies |
| `Sync.Poll` | src/main/Tree.razor.cs:206-230 | no-op with no children or a failed fetch; otherwise the old children stay as a prefix and the arrivals follow as fresh leaves whose ids were not rendered; the counter grows by exactly the number appended; the sound is requested iff something was appended while the counter was 0 |
| `Sync.PollAppendsExactlyQualifying` | src/main/Tree.razor.cs:213-221 | a neuron is appended iff it sits at a qualifying index of the ordered fetch |
| `Sync.PollAppendsInFetchedOrder` | src/main/Tree.razor.cs:213-221 | after the old roots the tick appends one fresh leaf per qualifying index of the ordered fetch, in index order |
| `Sync.DuplicateArrivalsBothAppended` | src/main/Tree.razor.cs:214-220 | rendered `[A]` with remote `[A,X,X]` appends `X` twice |
| `Sync.PollAllRenderedAppendsNothing` | src/main/Tree.razor.cs:213-215 | when every fetched id is already rendered, the tick changes nothing and plays no sound |
| `Sync.NothingQualifiesAfterAppend` | src/main/Tree.razor.cs:213-221 | after the arrivals are appended, no record of the same fetch qualifies any more |
| `Sync.PollIsIdempotent` | src/main/Tree.razor.cs:206-230 | a second tick against an unchanged remote ordering appends nothing and leaves the state as it was |
| `Sync.Tick` | src/main/Tree.razor.cs:210-228 | a tick whose sound call returns, or that makes no sound call because the counter is positive, is exactly `Sync.Poll`; when the counter is 0 and the call throws, the state stays as it was, with the sound attempted exactly when `Sync.Poll` would request it |
| `Sync.FailingSoundStallsTicks` | src/main/Tree.razor.cs:215-221 | while the counter is 0 and every sound call throws, any run of ticks leaves the state unchanged |
| `Sync.PollsOnlyAppend` | src/main/Tree.razor.cs:206-230 | over any run of ticks, each with its own fetch outcome and its own render direction (so the direction may be toggled between ticks), the roots rendered before stay, in order, as a prefix, and the counter grows by exactly the number of roots added |
| `Sync.RenderedNeurons` | src/main/Tree.razor.cs:213-214 | the records shown by the rendered roots, one per root, in the same order |
| `Sync.FrontArrivalNeverAppended` | src/main/Tree.razor.cs:213-214 | top-to-bottom, when the remote returns a new record followed by exactly the rendered records, the tick appends nothing, plays no sound and leaves the state unchanged |
| `Sync.EndArrivalNeverAppendedBottomToTop` | src/main/Tree.razor.cs:213-214 | bottom-to-top, when the remote returns the rendered records in reverse followed by a new record at its end, the tick appends nothing, plays no sound and leaves the state unchanged |
| `Sync.FrontArrivalAppendedBottomToTop` | src/main/Tree.razor.cs:213-214 | bottom-to-top, after a reload of [A, B, C] (rendered [C, B, A]), a tick on remote [X, A, B, C] appends X |
| `Sync.FrontArrivalIsLastBottomToTop` | src/main/Tree.razor.cs:212-214 | with [C, B, A] rendered bottom-to-top, the arrivals of remote [X, A, B, C] are exactly [X] |
| `Sync.Reload` | src/main/Tree.razor.cs:335-346 | on success the children are the ordered fetch as fresh leaves (reversed iff bottom-to-top) and the counter is 0; on a failed fetch the children are empty and the counter is unchanged |
| `Sync.ReloadThenPollAppendsNothing` | src/main/Tree.razor.cs:341-345 | a tick right after a reload from the same ordering appends nothing |
| `Sync.PollAppendsArrivalsExample` | src/main/Tree.razor.cs:213-221 | rendered `[A,B]` with remote `[A,B,C,D]` appends `C,D` in order, adds 2 to the counter and requests the sound |
| `Sync.ReloadBottomToTopExample` | src/main/Tree.razor.cs:246-247 | a bottom-to-top reload of `[A,B,C]` renders `[C,B,A]` |
| `Graph.Flatten` | src/main/Tree.razor.cs:443-448 | all roots come first, in order, before any descendant |
| `Graph.FlattenIsPermutationOfMembers` | src/main/Tree.razor.cs:443-448 | the traversal holds every neuron of the tree exactly as often as it occurs there, and nothing else |
| `Graph.SubtreeIsVisited` | src/main/Tree.razor.cs:447 | every neuron in a child's subtree is visited |
| `Graph.SiblingsFirstExample` | src/main/Tree.razor.cs:445-447 | tree `A{A1}, B{B1}` is visited as `[A,B,A1,B1]` |
| `Graph.ExtractNodes` | src/main/Tree.razor.cs:445 | one `{id, tag}` node per visited neuron, in visiting order, duplicates kept |
| `Graph.FindIndex` | src/main/Tree.razor.cs:456-457 | -1 iff the id is absent, otherwise the first index holding it |
| `Graph.Distinct` | src/main/Tree.razor.cs:428-434 | the distinct pass never grows the list; what it keeps is stated by `Graph.DistinctKeepsFirstOccurrences` |
| `Graph.DistinctKeepsFirstOccurrences` | src/main/Tree.razor.cs:430-434 | the distinct pass yields pairwise-distinct ids, contains every id, and each node equals the first occurrence of its id, in first-occurrence order |
| `Graph.DistinctKeepsIds` | src/main/Tree.razor.cs:430-434 | an id occurs in the distinct nodes iff it occurs among the extracted nodes |
| `Graph.NodeIdsAreVisitedIds` | src/main/Tree.razor.cs:425-434 | an id has a graph node iff some visited neuron carries it |
| `Graph.LoadGraph` | src/main/Tree.razor.cs:423-441 | at most one node per visit, and an empty tree gives an empty graph; the nodes and links are stated by `Graph.LoadGraphNodes` and `Graph.LoadGraphLinks` |
| `Graph.LoadGraphNodes` | src/main/Tree.razor.cs:425-434 | the graph's nodes have distinct ids, cover every visited id, and carry the id and tag of the first visit, in first-visit order |
| `Graph.FirstTagWinsExample` | src/main/Tree.razor.cs:430-434 | id `n1` tagged `X` above and `Y` below gives the single node `n1`/`X` |
| `Graph.LinkType` | src/main/Tree.razor.cs:459 | the type is one of the four concatenations |
| `Graph.LinkTypeRoundTrip` | src/main/Tree.razor.cs:459 | the type starts with `full` iff strength is `"1"` and ends with `inhibit` iff effect is `"-1"` |
| `Graph.LinkTypeExamples` | src/main/Tree.razor.cs:459 | `("1","-1")` gives `fullinhibit`; `("0.5","1")` gives `partialexcite` |
| `Graph.LinkOf` | src/main/Tree.razor.cs:456-461 | each endpoint is -1 when no node carries its terminal id, otherwise the index of the first node that does; the type is `LinkType` of the terminal's strength and effect |
| `Graph.Candidates` | src/main/Tree.razor.cs:452-465 | the candidate links are exactly the links of the visited neurons whose type is not `NotSet` |
| `Graph.AddAllKeepsPrefix` | src/main/Tree.razor.cs:460-461 | links already present are never removed or reordered |
| `Graph.AddAllKeepsPairsUnique` | src/main/Tree.razor.cs:460-461 | no two links ever share a (source, target) pair |
| `Graph.AddAllOnlyFromInput` | src/main/Tree.razor.cs:460-461 | every added link is one of the candidates |
| `Graph.AddAllCoversPairs` | src/main/Tree.razor.cs:460-461 | every candidate's pair ends up present |
| `Graph.AddAllFirstSeenWins` | src/main/Tree.razor.cs:460-461 | the first candidate with a new pair is the link kept for it, so its type wins |
| `Graph.LinksOfLevel` | src/main/Tree.razor.cs:452-462 | no contract of its own; see `Graph.LinksOfLevelIsAddAll` and `Graph.ExtractLinksIsAddAll` |
| `Graph.DescendLinks` | src/main/Tree.razor.cs:464-465 | no contract of its own; see `Graph.ExtractLinksIsAddAll` |
| `Graph.ExtractLinks` | src/main/Tree.razor.cs:450-466 | no contract of its own; see `Graph.ExtractLinksIsAddAll` |
| `Graph.ExtractLinksIsAddAll` | src/main/Tree.razor.cs:450-466 | the recursive, interleaved `ExtractLinks` equals one first-seen deduplication of the whole traversal's candidates |
| `Graph.LoadGraphLinks` | src/main/Tree.razor.cs:436-466 | graph links have unique pairs, each comes from a visited non-`NotSet` neuron, every such neuron's pair is present, and every endpoint is -1 or a node index |
| `Graph.LoadGraphLinksJoinTerminalNodes` | src/main/Tree.razor.cs:452-461 | every graph link comes from a visited relative neuron whose terminal ids are carried by the nodes at its endpoints (-1 only when no node carries the id) and whose strength and effect give its type |
| `Graph.FirstRelativeWithPair` | src/main/Tree.razor.cs:450-461 | the visit at a given index is a relative neuron and no earlier relative visit has the same source/target pair |
| `Graph.CandidatesSplitAt` | src/main/Tree.razor.cs:450-458 | the candidate links of a traversal are those of the visits before a relative neuron, its own link, then those of the later visits |
| `Graph.CandidatePosition` | src/main/Tree.razor.cs:450-461 | the link of a first relative visit with its pair sits right after the candidates of the earlier visits, and no earlier candidate has its pair |
| `Graph.EarlierCandidate` | src/main/Tree.razor.cs:450-458 | no candidate from the visits before a first relative visit with its pair shares that pair |
| `Graph.LoadGraphFirstSeenLinkWins` | src/main/Tree.razor.cs:450-461 | for every visit index whose relative neuron is the first with its pair, that neuron's link (type included) is in the graph |
| `Graph.MissingEndpointMeansUnvisitedId` | src/main/Tree.razor.cs:426-457 | an endpoint is -1 iff no visited neuron has that id |
| `Graph.SingleRootExample` | src/main/Tree.razor.cs:423-448 | a tree of one childless root with id `1` and tag `root` gives exactly the node `1`/`root` and no links |
| `ContextMenu.Initial` | src/main/Tree.razor.cs:261-321 | a new component starts on option New with nothing selected or edited, controls enabled, no delete prompt and no handler run yet |
| `ContextMenu.HandleSelectionOptionChanged` | src/main/Tree.razor.cs:40-58 | New clears the selection and edit target and enables controls; Delete only shows the prompt; Edit/AddRelative disable controls and edit the selected neuron, faulting with nothing selected; NotSet changes nothing |
| `ContextMenu.SetSelectedOption` | src/main/Tree.razor.cs:299-311 | the option becomes the value; the handler runs, once, only when the value differs |
| `ContextMenu.ReinitializeOption` | src/main/Helper.cs:16-20 | no contract of its own, being generic in the setter; see `ContextMenu.ReinitializeCallsSetterTwice` and `ContextMenu.Reinitialize` |
| `ContextMenu.ReinitializeCallsSetterTwice` | src/main/Helper.cs:16-20 | the setter is called exactly twice, with NotSet and then New |
| `ContextMenu.Reinitialize` | src/main/Helper.cs:16-20 | from any state the option ends as New with nothing selected, nothing edited and controls enabled; the handler log gains NotSet (only if the option was not NotSet), then New |
| `ContextMenu.ResetFromInitialRunsBothSteps` | src/main/Helper.cs:16-20 | a reset from a new component's state runs the handler for NotSet then New, whereas assigning New alone to that state changes nothing and runs no handler |
| `ContextMenu.ReinitializeRunsNewOnce` | src/main/Helper.cs:18-19 | one reset runs the New branch exactly once, even if the option was already New |
| `ContextMenu.SingleStepSkipsHandler` | src/main/Tree.razor.cs:304-308 | assigning New while already New runs nothing, whereas the reset does |
| `ContextMenu.NotSetStepChangesNoState` | src/main/Helper.cs:18 | the NotSet step fires only if the option was not NotSet and changes only the option |
| `ContextMenu.ConfirmDelete` | src/main/Tree.razor.cs:386-421 | a request is issued iff the address parses and a neuron is selected; a `NotSet` neuron is deactivated with its own id/version, any other through its terminal's; success resets the menu; failure or a missing selection leaves the state untouched with an error |
| `ContextMenu.SuccessfulDeleteResetsMenu` | src/main/Tree.razor.cs:412 | after a successful delete the option is New with nothing selected or edited |
| `ContextMenu.DeleteCommandKeepsSelection` | src/main/Tree.razor.cs:49-51 | choosing Delete shows the prompt and keeps the selection, so the confirmed delete issues a request |
| `ShareUrl.IndexOf` | src/main/Tree.razor.cs:477 | -1 iff the character is absent, otherwise its first position |
| `ShareUrl.StripQuery` | src/main/Tree.razor.cs:477 | a prefix of the address with no `?`, either the whole address or followed by `?` |
| `ShareUrl.BuildAvatarUrl` | src/main/Tree.razor.cs:475-481 | the stripped address, then `?avatarurl=`, then the encoded avatar address |
| `ShareUrl.ExistingQueryIsDropped` | src/main/Tree.razor.cs:477-480 | a query already on the address has no effect on the result |
| `ShareUrl.BuildThenSplit` | src/main/Tree.razor.cs:475-481 | splitting the result at its first `?` gives back the stripped address and `avatarurl=` followed by the encoded address |
| `ShareUrl.BuildIsIdempotentOnBase` | src/main/Tree.razor.cs:475-481 | building from an already shared address replaces the avatar parameter |

## Left out

- Timer creation, interval and disposal; the busy/re-entry behaviour of `async void` ticks; scheduling. These concern concurrency and lifecycle.
- The update-check interval setting (`TreePluginSettingsService`): a configuration read with a 2000 ms default and no logic of its own.
- JavaScript interop (`PlaySound`, `displayGraph`, `Subscribe`, `BlazorScrollToId`, `copyToClipboard`, `DotNetHelperSetter`, `RegisterServiceWorker`). These are foreign calls. The sound trigger is the `playSound` output of `Sync.Poll`, and the graph is the `Graph.LoadGraph` result.
- Remote query, neuron, terminal and subscription services. They become inputs (fetched records, parsed address, success flag).
- Deep-link parsing in `OnAfterRenderAsync` (query string, URL decoding, absolute http/https check, region and postsynaptic filters), because it wraps library code. `QueryUrl.TryParse` is the `Option<string>` input.
- `SubscribeWithBrowser`, `SubscribeWithEmail` and the subscription interop setters: descriptor plumbing around external services and identity claims.
- `SendLinkData`: I/O glue around the terminal service.
- Toasts other than the outcome of `ConfirmDelete`, dropdown and dialog visibility, `reloading` and `StateHasChanged`. These are UI only.
- The region-neuron navigation that appends `&regionid=` to the share address. It is navigation.
- Lazy child loading inside the neuron view model. Children are a given recursive datatype, and a view model created by a tick or a reload starts with none.
- `Sync.Reload`: failures after the fetch (scrolling, subscription key lookup) are not modelled. The children and counter are already set by then.
- `Sync.Poll`: the counter is an unbounded integer; a 32-bit overflow after more than two billion arrivals is not modelled. `Sync.Poll` treats the sound call as returning; `Sync.Tick` adds the case where it throws.
- `ContextMenu.HandleSelectionOptionChanged`: the null dereference for Edit/AddRelative with nothing selected is modelled as the state at the throw plus a `faulted` flag. What the framework does with the exception afterwards is not modelled.
- `ContextMenu.ConfirmDelete`: the error toast's exception text is not modelled. A relative neuron with a null terminal cannot be represented, because the terminal is always present in `Neurons.Neuron`.
- `ShareUrl.IndexOf`: the ordinal search for `?` stands in for .NET's culture-sensitive `IndexOf(string)`. The two agree unless a combining mark follows the `?`, which a percent-encoded page address does not contain.
- The error toasts of a failed tick (`OnTimerInterval`'s catch) and of a failed reload (`UITryHandler`) are not modelled. A failed fetch is modelled only by its effect on the children and the counter.
- How the selection itself is set happens in markup that is not part of this model.

=== FILE: context_menu.dfy ===
/** The context-menu state machine of the tree: the change-only setter of
    the selected option, the change handler it fires, the two-step reset
    helper, and the routing of a confirmed delete. Remote services are
    inputs: the parsed avatar address (None when it does not parse) and
    whether the deactivation call succeeded. */
module ContextMenu {
  import opened Wrappers
  import N = Neurons

  datatype ContextMenuOption = NotSet | New | Edit | Delete | AddRelative

  /** The part of the component the menu drives. `handled` lists, in order,
      the options the change handler was run with; `faulted` records that an
      exception escaped the handler. */
  datatype MenuState = MenuState(
    option: ContextMenuOption,
    selected: Option<N.TreeNode>,
    editNeuron: Option<N.Neuron>,
    controlsEnabled: bool,
    confirmVisible: bool,
    handled: seq<ContextMenuOption>,
    faulted: bool
  )

  /** The component as constructed: option New, nothing selected, controls
      enabled, no prompt. */
  function Initial(): (s: MenuState)
    ensures s.option == New && s.selected.None? && s.editNeuron.None?
    ensures s.controlsEnabled && !s.confirmVisible && s.handled == [] && !s.faulted
  {
    MenuState(New, None, None, true, false, [], false)
  }

  /** The change handler. Edit and AddRelative dereference the selection
      after disabling the controls: with nothing selected they stop there
      with a fault, the edit target untouched. */
  function HandleSelectionOptionChanged(s: MenuState, v: ContextMenuOption): (r: MenuState)
    ensures r.option == s.option && r.handled == s.handled
    ensures v == NotSet ==> r == s
    ensures v == New ==> r == s.(selected := None, editNeuron := None, controlsEnabled := true)
    ensures v == Delete ==> r == s.(confirmVisible := true)
    ensures (v == Edit || v == AddRelative) ==>
      && !r.controlsEnabled
      && r.selected == s.selected
      && r.confirmVisible == s.confirmVisible
      && (s.selected.Some? ==> r.editNeuron == Some(s.selected.value.neuron) && r.faulted == s.faulted)
      && (s.selected.None? ==> r.editNeuron == s.editNeuron && r.faulted)
  {
    match v
    case New => s.(selected := None, editNeuron := None, controlsEnabled := true)
    case Delete => s.(confirmVisible := true)
    case Edit | AddRelative =>
      var disabled := s.(controlsEnabled := false);
      if s.selected.Some? then disabled.(editNeuron := Some(s.selected.value.neuron))
      else disabled.(faulted := true)
    case NotSet => s
  }

  /** The SelectedOption setter: on a change it stores the value and runs the
      handler with it; assigning the current value does nothing. */
  function SetSelectedOption(s: MenuState, v: ContextMenuOption): (r: MenuState)
    ensures r.option == v
    ensures s.option == v ==> r == s
    ensures s.option != v ==> r.handled == s.handled + [v]
    ensures s.option != v ==> r == HandleSelectionOptionChanged(s.(option := v, handled := s.handled + [v]), v)
  {
    if s.option != v then
      HandleSelectionOptionChanged(s.(option := v, handled := s.handled + [v]), v)
    else s
  }

  /** Helper.ReinitializeOption: calls the setter with NotSet, then with New. */
  function ReinitializeOption<S>(s: S, setter: (S, ContextMenuOption) -> S): S
  {
    setter(setter(s, NotSet), New)
  }

  /** A setter that only records its argument sees exactly two calls, NotSet
      then New. */
  lemma ReinitializeCallsSetterTwice(calls: seq<ContextMenuOption>)
    ensures ReinitializeOption(calls, (log: seq<ContextMenuOption>, o: ContextMenuOption) => log + [o])
      == calls + [NotSet, New]
  {
  }

  /** The reset the component performs: ReinitializeOption on its own setter. */
  function Reinitialize(s: MenuState): (r: MenuState)
    ensures r.option == New
    ensures r.selected.None? && r.editNeuron.None? && r.controlsEnabled
    ensures r.confirmVisible == s.confirmVisible && r.faulted == s.faulted
    ensures r.handled == s.handled + (if s.option != NotSet then [NotSet] else []) + [New]
  {
    ReinitializeOption(s, SetSelectedOption)
  }

  function Count(xs: seq<ContextMenuOption>, o: ContextMenuOption): nat
  {
    if xs == [] then 0 else (if xs[0] == o then 1 else 0) + Count(xs[1..], o)
  }

  /** Whatever the prior option, one reset runs the New branch of the handler
      exactly once, and the NotSet branch at most once. */
  lemma ReinitializeRunsNewOnce(s: MenuState)
    ensures var r := Reinitialize(s);
            |s.handled| <= |r.handled| && r.handled[..|s.handled|] == s.handled
            && Count(r.handled[|s.handled|..], New) == 1
            && Count(r.handled[|s.handled|..], NotSet) == (if s.option != NotSet then 1 else 0)
  {
    var r := Reinitialize(s);
    var added := if s.option != NotSet then [NotSet, New] else [New];
    assert r.handled == s.handled + added;
    assert r.handled[|s.handled|..] == added;
    assert Count([], New) == 0 && Count([], NotSet) == 0;
    assert [New][1..] == [];
    assert Count([New], New) == 1 && Count([New], NotSet) == 0;
    if s.option != NotSet {
      assert added[1..] == [New];
    }
  }

  /** Resetting a freshly constructed component runs the handler with NotSet
      and then New: without the NotSet step the option, already New, would
      not change and the New branch would not run. */
  lemma ResetFromInitialRunsBothSteps()
    ensures Reinitialize(Initial()).handled == [NotSet, New]
    ensures SetSelectedOption(Initial(), New) == Initial()
  {
  }

  /** Assigning New alone does not run the handler when the option is already
      New: the reason the reset goes through NotSet first. */
  lemma SingleStepSkipsHandler(s: MenuState)
    requires s.option == New
    ensures SetSelectedOption(s, New) == s
    ensures Reinitialize(s).handled == s.handled + [NotSet, New]
  {
  }

  /** The NotSet step of the reset touches nothing but the option and the
      handler log. */
  lemma NotSetStepChangesNoState(s: MenuState)
    ensures var r := SetSelectedOption(s, NotSet);
            r == s.(option := NotSet, handled := r.handled)
            && r.handled == s.handled + (if s.option != NotSet then [NotSet] else [])
  {
  }

  // ---------------------------------------------------------------------
  // Delete

  /** The deactivation request a confirmed delete issues. */
  datatype Deactivation =
    | DeactivateNeuron(avatarUrl: string, id: string, version: int)
    | DeactivateTerminal(avatarUrl: string, id: string, version: int)

  /** What the user is told: nothing, a success toast, or an error toast. */
  datatype Notice = Quiet | Succeeded(message: string) | Failed

  datatype DeleteOutcome = DeleteOutcome(state: MenuState, request: Option<Deactivation>, notice: Notice)

  /** ConfirmDelete. With no parseable avatar address nothing happens. With
      no selection the dereference throws inside the try block and only an
      error is shown. Otherwise a root neuron is deactivated with its own id
      and version, any relative through its terminal's; on success the menu
      is reset, on failure the selection is left for a retry. */
  function ConfirmDelete(s: MenuState, avatarUrl: Option<string>, serviceSucceeds: bool): (r: DeleteOutcome)
    ensures r.request.Some? <==> avatarUrl.Some? && s.selected.Some?
    ensures r.request.Some? ==> r.request.value.avatarUrl == avatarUrl.value
    ensures r.request.Some? ==>
      var n := s.selected.value.neuron;
      if n.relType == N.NotSet then r.request.value == DeactivateNeuron(avatarUrl.value, n.id, n.version)
      else r.request.value == DeactivateTerminal(avatarUrl.value, n.terminal.id, n.terminal.version)
    ensures r.notice.Succeeded? <==> r.request.Some? && serviceSucceeds
    ensures r.notice.Failed? <==> avatarUrl.Some? && !(s.selected.Some? && serviceSucceeds)
    ensures r.notice.Succeeded? ==> r.state == Reinitialize(s)
    ensures !r.notice.Succeeded? ==> r.state == s
  {
    if avatarUrl.None? then DeleteOutcome(s, None, Quiet)
    else if s.selected.None? then DeleteOutcome(s, None, Failed)
    else
      var n := s.selected.value.neuron;
      var request :=
        if n.relType == N.NotSet then DeactivateNeuron(avatarUrl.value, n.id, n.version)
        else DeactivateTerminal(avatarUrl.value, n.terminal.id, n.terminal.version);
      var description := if n.relType == N.NotSet then "Neuron removed" else "Terminal removed";
      if serviceSucceeds then DeleteOutcome(Reinitialize(s), Some(request), Succeeded(description + " successfully."))
      else DeleteOutcome(s, Some(request), Failed)
  }

  /** After a successful delete the menu is back on New with nothing selected
      and nothing being edited, whatever it showed before. */
  lemma SuccessfulDeleteResetsMenu(s: MenuState, avatarUrl: string)
    requires s.selected.Some?
    ensures var r := ConfirmDelete(s, Some(avatarUrl), true).state;
            r.option == New && r.selected.None? && r.editNeuron.None? && r.controlsEnabled
  {
  }

  /** The walk the menu takes for a delete: choosing Delete shows the prompt
      and keeps the selection, so the confirmed delete targets it. */
  lemma DeleteCommandKeepsSelection(s: MenuState, avatarUrl: string, ok: bool)
    requires s.option != Delete && s.selected.Some?
    ensures var chosen := SetSelectedOption(s, Delete);
            chosen.confirmVisible && chosen.selected == s.selected
            && ConfirmDelete(chosen, Some(avatarUrl), ok).request.Some?
  {
  }
}

=== FILE: graph.dfy ===
/** The graph handed to the renderer: the tree is walked siblings-first
    (every child of a level, then each child's own subtree in turn), the
    visited neurons are reduced to one node per id, and every relative
    neuron contributes a link between the indices of its terminal's two
    endpoints, one link per (source, target) pair. */
module Graph {
  import opened Neurons

  datatype Node = Node(id: string, tag: string)

  /** `source` and `target` index the distinct nodes; -1 marks an endpoint
      id that is not among them. */
  datatype Link = Link(source: int, target: int, linkType: string)

  datatype GraphData = GraphData(nodes: seq<Node>, links: seq<Link>)

  // ---------------------------------------------------------------------
  // Traversal

  /** The neurons of `cs` in visiting order: all of `cs` first, then the
      subtree of each child of `cs`, in order. */
  function Flatten(cs: seq<TreeNode>): (ns: seq<Neuron>)
    ensures |cs| <= |ns|
    ensures forall i :: 0 <= i < |cs| ==> ns[i] == cs[i].neuron
    decreases cs, 1
  {
    Level(cs) + Descend(cs)
  }

  function Level(cs: seq<TreeNode>): (ns: seq<Neuron>)
    ensures |ns| == |cs|
    ensures forall i :: 0 <= i < |cs| ==> ns[i] == cs[i].neuron
  {
    seq(|cs|, i requires 0 <= i < |cs| => cs[i].neuron)
  }

  function Descend(cs: seq<TreeNode>): seq<Neuron>
    decreases cs, 0
  {
    if cs == [] then [] else Flatten(cs[0].children) + Descend(cs[1..])
  }

  /** Every neuron of a child's subtree is visited. */
  lemma {:induction false} SubtreeIsVisited(cs: seq<TreeNode>, i: int, x: Neuron)
    requires 0 <= i < |cs|
    requires x in Flatten(cs[i].children)
    ensures x in Flatten(cs)
  {
    DescendCovers(cs, i, x);
  }

  lemma {:induction false} DescendCovers(cs: seq<TreeNode>, i: int, x: Neuron)
    requires 0 <= i < |cs|
    requires x in Flatten(cs[i].children)
    ensures x in Descend(cs)
    decreases |cs|
  {
    if i > 0 {
      DescendCovers(cs[1..], i - 1, x);
    }
  }

  /** Every neuron of a forest, each as often as it occurs: a root, then its
      own subtree, then the rest of the forest. */
  function Members(cs: seq<TreeNode>): multiset<Neuron>
    decreases cs
  {
    if cs == [] then multiset{}
    else multiset{cs[0].neuron} + Members(cs[0].children) + Members(cs[1..])
  }

  /** The traversal visits every neuron of the forest exactly as often as it
      occurs there, and nothing else. */
  lemma {:induction false} FlattenIsPermutationOfMembers(cs: seq<TreeNode>)
    ensures multiset(Flatten(cs)) == Members(cs)
    decreases cs
  {
    if cs != [] {
      FlattenIsPermutationOfMembers(cs[0].children);
      FlattenIsPermutationOfMembers(cs[1..]);
      FlattenFirst(cs);
    }
  }

  /** The traversal of a forest holds its first root, that root's subtree and
      the traversal of the remaining roots. */
  lemma FlattenFirst(cs: seq<TreeNode>)
    requires cs != []
    ensures multiset(Flatten(cs))
      == multiset{cs[0].neuron} + multiset(Flatten(cs[0].children)) + multiset(Flatten(cs[1..]))
  {
    var level := Level(cs[1..]);
    var below := Descend(cs[1..]);
    var own := Flatten(cs[0].children);
    assert Level(cs) == [cs[0].neuron] + level;
    assert Flatten(cs) == [cs[0].neuron] + level + (own + below);
    assert multiset(Flatten(cs)) == multiset{cs[0].neuron} + multiset(level) + multiset(own) + multiset(below);
  }

  /** The flat node list ExtractNodes builds, duplicates retained. */
  function ExtractNodes(cs: seq<TreeNode>): (all: seq<Node>)
    ensures |all| == |Flatten(cs)|
    ensures forall i :: 0 <= i < |all| ==> all[i] == Node(Flatten(cs)[i].id, Flatten(cs)[i].tag)
  {
    var ns := Flatten(cs);
    seq(|ns|, i requires 0 <= i < |ns| => Node(ns[i].id, ns[i].tag))
  }

  // ---------------------------------------------------------------------
  // Distinct nodes

  predicate HasId(xs: seq<Node>, id: string)
  {
    exists k :: 0 <= k < |xs| && xs[k].id == id
  }

  predicate UniqueIds(xs: seq<Node>)
  {
    forall j, k :: 0 <= j < k < |xs| ==> xs[j].id != xs[k].id
  }

  /** FindIndex on the id: the first position with this id, or -1. */
  function FindIndex(xs: seq<Node>, id: string): (r: int)
    ensures -1 <= r < |xs|
    ensures r == -1 <==> !HasId(xs, id)
    ensures r >= 0 ==> xs[r].id == id && forall k :: 0 <= k < r ==> xs[k].id != id
  {
    if xs == [] then -1
    else if xs[0].id == id then 0
    else
      var r := FindIndex(xs[1..], id);
      if r == -1 then -1 else r + 1
  }

  /** Searching a list extended by one element. */
  lemma FindIndexSnoc(xs: seq<Node>, x: Node, id: string)
    ensures FindIndex(xs + [x], id) ==
      (if HasId(xs, id) then FindIndex(xs, id) else if x.id == id then |xs| else -1)
  {
    var ys := xs + [x];
    var r := FindIndex(ys, id);
    if HasId(xs, id) {
      var p := FindIndex(xs, id);
      assert ys[p].id == id;
      assert forall k :: 0 <= k < p ==> ys[k] == xs[k];
    } else if x.id == id {
      assert ys[|xs|].id == id;
      assert forall k :: 0 <= k < |xs| ==> ys[k] == xs[k];
    } else {
      assert forall k :: 0 <= k < |ys| ==> ys[k].id != id by {
        assert forall k :: 0 <= k < |xs| ==> ys[k] == xs[k];
      }
    }
  }

  /** The distinct pass, one element at a time from the front as the
      distinct loop of LoadGraph goes: an element is kept when no kept node has its id yet. */
  function Distinct(all: seq<Node>): (d: seq<Node>)
    ensures |d| <= |all|
    decreases |all|
  {
    if all == [] then []
    else
      var d := Distinct(all[..|all| - 1]);
      var x := all[|all| - 1];
      if HasId(d, x.id) then d else d + [x]
  }

  /** `d` holds one node per id of `all`, each equal to the first occurrence
      of its id in `all`, in first-occurrence order. */
  predicate FirstOccurrences(all: seq<Node>, d: seq<Node>)
  {
    && UniqueIds(d)
    && (forall j :: 0 <= j < |all| ==> HasId(d, all[j].id))
    && (forall k :: 0 <= k < |d| ==> 0 <= FindIndex(all, d[k].id) && d[k] == all[FindIndex(all, d[k].id)])
    && (forall j, k :: 0 <= j < k < |d| ==> FindIndex(all, d[j].id) < FindIndex(all, d[k].id))
  }

  /** Step of the distinct pass when the next id is already kept. */
  lemma DistinctStepSeen(all: seq<Node>, x: Node, d: seq<Node>)
    requires FirstOccurrences(all, d)
    requires HasId(d, x.id)
    ensures FirstOccurrences(all + [x], d)
  {
    var all' := all + [x];
    forall k | 0 <= k < |d|
      ensures FindIndex(all', d[k].id) == FindIndex(all, d[k].id)
    {
      FindIndexSnoc(all, x, d[k].id);
    }
    forall j | 0 <= j < |all'|
      ensures HasId(d, all'[j].id)
    {
      if j < |all| { assert all'[j] == all[j]; }
    }
    forall k | 0 <= k < |d|
      ensures d[k] == all'[FindIndex(all', d[k].id)]
    {
      assert all'[FindIndex(all, d[k].id)] == all[FindIndex(all, d[k].id)];
    }
  }

  /** Where the kept ids first occur once a new id is appended. */
  lemma DistinctStepNewIndices(all: seq<Node>, x: Node, d: seq<Node>)
    requires FirstOccurrences(all, d)
    requires !HasId(d, x.id)
    ensures FindIndex(all + [x], x.id) == |all|
    ensures forall k :: 0 <= k < |d| ==> FindIndex(all + [x], d[k].id) == FindIndex(all, d[k].id) < |all|
  {
    forall j | 0 <= j < |all| ensures all[j].id != x.id {
      assert HasId(d, all[j].id);
    }
    FindIndexSnoc(all, x, x.id);
    forall k | 0 <= k < |d|
      ensures FindIndex(all + [x], d[k].id) == FindIndex(all, d[k].id) < |all|
    {
      FindIndexSnoc(all, x, d[k].id);
    }
  }

  /** Step of the distinct pass when the next id is new: it is kept, at the
      end, and its first occurrence is the element itself. */
  lemma DistinctStepNew(all: seq<Node>, x: Node, d: seq<Node>)
    requires FirstOccurrences(all, d)
    requires !HasId(d, x.id)
    ensures FirstOccurrences(all + [x], d + [x])
  {
    var all' := all + [x];
    var d' := d + [x];
    DistinctStepNewIndices(all, x, d);
    forall j | 0 <= j < |all'|
      ensures HasId(d', all'[j].id)
    {
      if j < |all| {
        assert all'[j] == all[j];
        var k :| 0 <= k < |d| && d[k].id == all[j].id;
        assert d'[k] == d[k];
      } else {
        assert d'[|d|] == x;
      }
    }
    forall k | 0 <= k < |d'|
      ensures 0 <= FindIndex(all', d'[k].id) && d'[k] == all'[FindIndex(all', d'[k].id)]
    {
      if k < |d| {
        assert d'[k] == d[k];
        assert all'[FindIndex(all, d[k].id)] == all[FindIndex(all, d[k].id)];
      }
    }
    forall j, k | 0 <= j < k < |d'|
      ensures d'[j].id != d'[k].id
      ensures FindIndex(all', d'[j].id) < FindIndex(all', d'[k].id)
    {
      assert d'[j] == d[j];
      if k < |d| { assert d'[k] == d[k]; }
    }
  }

  /** The distinct pass keeps exactly the first occurrence of every id. */
  lemma {:induction false} DistinctKeepsFirstOccurrences(all: seq<Node>)
    ensures FirstOccurrences(all, Distinct(all))
    decreases |all|
  {
    if all != [] {
      var prefix := all[..|all| - 1];
      var x := all[|all| - 1];
      assert all == prefix + [x];
      DistinctKeepsFirstOccurrences(prefix);
      var d := Distinct(prefix);
      if HasId(d, x.id) {
        DistinctStepSeen(prefix, x, d);
      } else {
        DistinctStepNew(prefix, x, d);
      }
    }
  }

  // ---------------------------------------------------------------------
  // Links

  /** The link type: "full" when strength is "1", else "partial", followed
      without a separator by "inhibit" when effect is "-1", else "excite". */
  function LinkType(strength: string, effect: string): (t: string)
    ensures t == "fullinhibit" || t == "fullexcite" || t == "partialinhibit" || t == "partialexcite"
  {
    assert "full" + "inhibit" == "fullinhibit" && "full" + "excite" == "fullexcite";
    assert "partial" + "inhibit" == "partialinhibit" && "partial" + "excite" == "partialexcite";
    (if strength == "1" then "full" else "partial") + (if effect == "-1" then "inhibit" else "excite")
  }

  /** Reading a link type back: does it start with "full", end with "inhibit". */
  predicate IsFull(t: string)
  {
    |t| >= 4 && t[..4] == "full"
  }

  predicate IsInhibit(t: string)
  {
    |t| >= 7 && t[|t| - 7..] == "inhibit"
  }

  /** The type string records exactly the two comparisons it was built from. */
  lemma LinkTypeRoundTrip(strength: string, effect: string)
    ensures IsFull(LinkType(strength, effect)) <==> strength == "1"
    ensures IsInhibit(LinkType(strength, effect)) <==> effect == "-1"
  {
    var t := LinkType(strength, effect);
    if strength != "1" {
      assert t[..4] == "part";
    }
    if effect != "-1" {
      assert t[|t| - 7..] == "lexcite";
    }
  }

  lemma LinkTypeExamples()
    ensures LinkType("1", "-1") == "fullinhibit"
    ensures LinkType("0.5", "1") == "partialexcite"
  {
  }

  /** The link a relative neuron describes, its endpoints looked up among
      the distinct nodes. */
  function LinkOf(n: Neuron, nodes: seq<Node>): (l: Link)
    ensures -1 <= l.source < |nodes| && -1 <= l.target < |nodes|
    ensures l.source >= 0 <==> HasId(nodes, n.terminal.presynapticId)
    ensures l.target >= 0 <==> HasId(nodes, n.terminal.postsynapticId)
    ensures l.source >= 0 ==>
      (nodes[l.source].id == n.terminal.presynapticId && forall k :: 0 <= k < l.source ==> nodes[k].id != n.terminal.presynapticId)
    ensures l.target >= 0 ==>
      (nodes[l.target].id == n.terminal.postsynapticId && forall k :: 0 <= k < l.target ==> nodes[k].id != n.terminal.postsynapticId)
    ensures l.linkType == LinkType(n.terminal.strength, n.terminal.effect)
  {
    Link(FindIndex(nodes, n.terminal.presynapticId),
         FindIndex(nodes, n.terminal.postsynapticId),
         LinkType(n.terminal.strength, n.terminal.effect))
  }

  predicate SamePair(a: Link, b: Link)
  {
    a.source == b.source && a.target == b.target
  }

  predicate HasPair(links: seq<Link>, l: Link)
  {
    exists k :: 0 <= k < |links| && SamePair(links[k], l)
  }

  predicate UniquePairs(links: seq<Link>)
  {
    forall j, k :: 0 <= j < k < |links| ==> !SamePair(links[j], links[k])
  }

  /** No earlier element of `xs` has the pair of `xs[j]`. */
  predicate FirstWithPair(xs: seq<Link>, j: int)
    requires 0 <= j < |xs|
  {
    forall i :: 0 <= i < j ==> !SamePair(xs[i], xs[j])
  }

  /** Adds `l` unless a link with its (source, target) pair is already there. */
  function AddLink(links: seq<Link>, l: Link): seq<Link>
  {
    if HasPair(links, l) then links else links + [l]
  }

  /** Folds AddLink over `xs`: the reference for the interleaved pass. */
  function AddAll(links: seq<Link>, xs: seq<Link>): seq<Link>
    decreases |xs|
  {
    if xs == [] then links else AddAll(AddLink(links, xs[0]), xs[1..])
  }

  /** Links already present stay, in place, as a prefix. */
  lemma {:induction false} AddAllKeepsPrefix(links: seq<Link>, xs: seq<Link>)
    ensures var r := AddAll(links, xs);
            |links| <= |r| && r[..|links|] == links
    decreases |xs|
  {
    if xs != [] {
      var step := AddLink(links, xs[0]);
      AddAllKeepsPrefix(step, xs[1..]);
      var r := AddAll(links, xs);
      assert r[..|step|][..|links|] == r[..|links|];
    }
  }

  /** Adding never creates a second link for a pair. */
  lemma {:induction false} AddAllKeepsPairsUnique(links: seq<Link>, xs: seq<Link>)
    requires UniquePairs(links)
    ensures UniquePairs(AddAll(links, xs))
    decreases |xs|
  {
    if xs != [] {
      var step := AddLink(links, xs[0]);
      assert UniquePairs(step) by {
        if !HasPair(links, xs[0]) {
          forall j, k | 0 <= j < k < |step| ensures !SamePair(step[j], step[k]) {
            assert step[j] == links[j];
            if k < |links| { assert step[k] == links[k]; }
          }
        }
      }
      AddAllKeepsPairsUnique(step, xs[1..]);
    }
  }

  /** Every link added comes from `xs`. */
  lemma {:induction false} AddAllOnlyFromInput(links: seq<Link>, xs: seq<Link>)
    ensures var r := AddAll(links, xs);
            forall k :: |links| <= k < |r| ==> r[k] in xs
    decreases |xs|
  {
    if xs != [] {
      var step := AddLink(links, xs[0]);
      AddAllOnlyFromInput(step, xs[1..]);
      AddAllKeepsPrefix(step, xs[1..]);
      var r := AddAll(links, xs);
      forall k | |links| <= k < |r| ensures r[k] in xs {
        if k < |step| {
          assert r[k] == r[..|step|][k] == step[k] == xs[0];
        } else {
          assert r[k] in xs[1..];
        }
      }
    }
  }

  /** A pair present before, or carried by an element of `xs`, is present
      after. */
  lemma {:induction false} AddAllCoversPairs(links: seq<Link>, xs: seq<Link>, x: Link)
    requires HasPair(links, x) || x in xs
    ensures HasPair(AddAll(links, xs), x)
    decreases |xs|
  {
    if xs != [] {
      var step := AddLink(links, xs[0]);
      if HasPair(links, x) {
        var k :| 0 <= k < |links| && SamePair(links[k], x);
        assert step[k] == links[k];
      } else if x == xs[0] {
        if !HasPair(links, x) { assert step[|links|] == x; }
      } else {
        assert x in xs[1..];
      }
      AddAllCoversPairs(step, xs[1..], x);
    }
    if xs == [] {
      assert HasPair(links, x);
    }
  }

  /** The first element of `xs` with a pair not present before is the one
      added for that pair: the first-seen type wins. */
  lemma {:induction false} AddAllFirstSeenWins(links: seq<Link>, xs: seq<Link>, j: int)
    requires 0 <= j < |xs|
    requires !HasPair(links, xs[j]) && FirstWithPair(xs, j)
    ensures xs[j] in AddAll(links, xs)
    decreases |xs|
  {
    var step := AddLink(links, xs[0]);
    AddAllKeepsPrefix(step, xs[1..]);
    var r := AddAll(links, xs);
    if j == 0 {
      assert r[|links|] == r[..|step|][|links|] == step[|links|] == xs[0];
    } else {
      assert xs[1..][j - 1] == xs[j];
      forall k | 0 <= k < |step| ensures !SamePair(step[k], xs[j]) {
        if k < |links| {
          assert step[k] == links[k];
        } else {
          assert step[k] == xs[0];
        }
      }
      assert FirstWithPair(xs[1..], j - 1) by {
        forall i | 0 <= i < j - 1 ensures !SamePair(xs[1..][i], xs[1..][j - 1]) {
          assert xs[1..][i] == xs[i + 1];
        }
      }
      AddAllFirstSeenWins(step, xs[1..], j - 1);
    }
  }

  lemma {:induction false} AddAllAppend(links: seq<Link>, xs: seq<Link>, ys: seq<Link>)
    ensures AddAll(links, xs + ys) == AddAll(AddAll(links, xs), ys)
    decreases |xs|
  {
    if xs == [] {
      assert xs + ys == ys;
    } else {
      assert (xs + ys)[1..] == xs[1..] + ys;
      AddAllAppend(AddLink(links, xs[0]), xs[1..], ys);
    }
  }

  /** The links the relative neurons of `ns` describe, in order, repeats kept. */
  function Candidates(ns: seq<Neuron>, nodes: seq<Node>): (ls: seq<Link>)
    ensures forall l :: l in ls ==> exists n :: n in ns && n.relType != NotSet && l == LinkOf(n, nodes)
    ensures forall n :: n in ns && n.relType != NotSet ==> LinkOf(n, nodes) in ls
  {
    if ns == [] then []
    else
      var rest := Candidates(ns[1..], nodes);
      assert forall n :: n in ns ==> n == ns[0] || n in ns[1..];
      if ns[0].relType != NotSet then [LinkOf(ns[0], nodes)] + rest else rest
  }

  lemma {:induction false} CandidatesAppend(a: seq<Neuron>, b: seq<Neuron>, nodes: seq<Node>)
    ensures Candidates(a + b, nodes) == Candidates(a, nodes) + Candidates(b, nodes)
    decreases |a|
  {
    if a == [] {
      assert a + b == b;
    } else {
      assert (a + b)[1..] == a[1..] + b;
      CandidatesAppend(a[1..], b, nodes);
    }
  }

  /** The first loop of ExtractLinks: the children of one level in order,
      relative neurons only. */
  function LinksOfLevel(cs: seq<TreeNode>, nodes: seq<Node>, links: seq<Link>): seq<Link>
    decreases |cs|
  {
    if cs == [] then links
    else
      var n := cs[0].neuron;
      LinksOfLevel(cs[1..], nodes, if n.relType != NotSet then AddLink(links, LinkOf(n, nodes)) else links)
  }

  /** ExtractLinks: the level first, then each child's subtree in turn. */
  function ExtractLinks(cs: seq<TreeNode>, nodes: seq<Node>, links: seq<Link>): seq<Link>
    decreases cs, 1
  {
    DescendLinks(cs, nodes, LinksOfLevel(cs, nodes, links))
  }

  function DescendLinks(cs: seq<TreeNode>, nodes: seq<Node>, links: seq<Link>): seq<Link>
    decreases cs, 0
  {
    if cs == [] then links
    else DescendLinks(cs[1..], nodes, ExtractLinks(cs[0].children, nodes, links))
  }

  lemma {:induction false} LinksOfLevelIsAddAll(cs: seq<TreeNode>, nodes: seq<Node>, links: seq<Link>)
    ensures LinksOfLevel(cs, nodes, links) == AddAll(links, Candidates(Level(cs), nodes))
    decreases |cs|
  {
    if cs != [] {
      var n := cs[0].neuron;
      assert Level(cs) == [n] + Level(cs[1..]);
      CandidatesAppend([n], Level(cs[1..]), nodes);
      var step := if n.relType != NotSet then AddLink(links, LinkOf(n, nodes)) else links;
      LinksOfLevelIsAddAll(cs[1..], nodes, step);
      AddAllAppend(links, Candidates([n], nodes), Candidates(Level(cs[1..]), nodes));
      if n.relType != NotSet {
        assert Candidates([n], nodes) == [LinkOf(n, nodes)];
      } else {
        assert Candidates([n], nodes) == [];
      }
    }
  }

  /** The interleaved, in-place deduplication of ExtractLinks gives the same
      links as deduplicating the candidate list of the whole traversal. */
  lemma {:induction false} ExtractLinksIsAddAll(cs: seq<TreeNode>, nodes: seq<Node>, links: seq<Link>)
    ensures ExtractLinks(cs, nodes, links) == AddAll(links, Candidates(Flatten(cs), nodes))
    decreases cs, 1
  {
    LinksOfLevelIsAddAll(cs, nodes, links);
    var afterLevel := LinksOfLevel(cs, nodes, links);
    DescendLinksIsAddAll(cs, nodes, afterLevel);
    CandidatesAppend(Level(cs), Descend(cs), nodes);
    AddAllAppend(links, Candidates(Level(cs), nodes), Candidates(Descend(cs), nodes));
  }

  lemma {:induction false} DescendLinksIsAddAll(cs: seq<TreeNode>, nodes: seq<Node>, links: seq<Link>)
    ensures DescendLinks(cs, nodes, links) == AddAll(links, Candidates(Descend(cs), nodes))
    decreases cs, 0
  {
    if cs != [] {
      ExtractLinksIsAddAll(cs[0].children, nodes, links);
      var mid := ExtractLinks(cs[0].children, nodes, links);
      DescendLinksIsAddAll(cs[1..], nodes, mid);
      CandidatesAppend(Flatten(cs[0].children), Descend(cs[1..]), nodes);
      AddAllAppend(links, Candidates(Flatten(cs[0].children), nodes), Candidates(Descend(cs[1..]), nodes));
    }
  }

  // ---------------------------------------------------------------------
  // LoadGraph

  /** No earlier visit has the id of visit `i`. */
  predicate FirstVisit(ns: seq<Neuron>, i: int)
    requires 0 <= i < |ns|
  {
    forall j :: 0 <= j < i ==> ns[j].id != ns[i].id
  }

  /** LoadGraph: the distinct nodes of the traversal, then the links. */
  function LoadGraph(children: seq<TreeNode>): (g: GraphData)
    ensures |g.nodes| <= |Flatten(children)|
    ensures children == [] ==> g == GraphData([], [])
  {
    var nodes := Distinct(ExtractNodes(children));
    GraphData(nodes, ExtractLinks(children, nodes, []))
  }

  /** The nodes: pairwise-distinct ids, every visited id present, each node
      carrying the id and tag of the first visit to that id, in first-visit
      order. */
  lemma LoadGraphNodes(children: seq<TreeNode>)
    ensures var g := LoadGraph(children);
            var ns := Flatten(children);
            && UniqueIds(g.nodes)
            && (forall i :: 0 <= i < |ns| ==> HasId(g.nodes, ns[i].id))
            && (forall k :: 0 <= k < |g.nodes| ==>
                  exists i :: 0 <= i < |ns| && FirstVisit(ns, i) && g.nodes[k] == Node(ns[i].id, ns[i].tag))
            && (forall j, k :: 0 <= j < k < |g.nodes| ==>
                  FindIndex(ExtractNodes(children), g.nodes[j].id) < FindIndex(ExtractNodes(children), g.nodes[k].id))
  {
    var all := ExtractNodes(children);
    var ns := Flatten(children);
    var nodes := Distinct(all);
    DistinctKeepsFirstOccurrences(all);
    forall i | 0 <= i < |ns| ensures HasId(nodes, ns[i].id) {
      assert all[i].id == ns[i].id;
    }
    assert LoadGraph(children).nodes == nodes;
    forall k | 0 <= k < |nodes|
      ensures exists i :: 0 <= i < |ns| && FirstVisit(ns, i) && nodes[k] == Node(ns[i].id, ns[i].tag)
    {
      var i := FindIndex(all, nodes[k].id);
      FirstIndexIsFirstVisit(children, nodes[k].id);
      assert nodes[k] == all[i] == Node(ns[i].id, ns[i].tag);
    }
  }

  /** The first extracted node with an id comes from the first visit to it. */
  lemma FirstIndexIsFirstVisit(children: seq<TreeNode>, id: string)
    requires HasId(ExtractNodes(children), id)
    ensures var i := FindIndex(ExtractNodes(children), id);
            var ns := Flatten(children);
            0 <= i < |ns| && FirstVisit(ns, i) && ExtractNodes(children)[i] == Node(ns[i].id, ns[i].tag)
  {
    var all := ExtractNodes(children);
    var ns := Flatten(children);
    var i := FindIndex(all, id);
    forall j | 0 <= j < i ensures ns[j].id != ns[i].id {
      assert all[j].id == ns[j].id;
      assert all[i].id == ns[i].id;
    }
  }

  /** The links: one per (source, target) pair, each described by a visited
      relative neuron, every visited relative neuron's pair present, and
      each endpoint -1 or an index of a node. */
  lemma LoadGraphLinks(children: seq<TreeNode>)
    ensures var g := LoadGraph(children);
            var ns := Flatten(children);
            && UniquePairs(g.links)
            && (forall l :: l in g.links ==> exists n :: n in ns && n.relType != NotSet && l == LinkOf(n, g.nodes))
            && (forall n :: n in ns && n.relType != NotSet ==> HasPair(g.links, LinkOf(n, g.nodes)))
            && (forall l :: l in g.links ==> -1 <= l.source < |g.nodes| && -1 <= l.target < |g.nodes|)
  {
    var g := LoadGraph(children);
    var ns := Flatten(children);
    var cands := Candidates(ns, g.nodes);
    ExtractLinksIsAddAll(children, g.nodes, []);
    AddAllKeepsPairsUnique([], cands);
    AddAllOnlyFromInput([], cands);
    forall n | n in ns && n.relType != NotSet ensures HasPair(g.links, LinkOf(n, g.nodes)) {
      AddAllCoversPairs([], cands, LinkOf(n, g.nodes));
    }
    forall l | l in g.links ensures l in cands {
      var k :| 0 <= k < |g.links| && g.links[k] == l;
    }
  }

  /** Every graph link joins the nodes that carry its terminal's two ids
      (the first such node, or -1 when there is none) and has the type of
      that terminal. */
  lemma LoadGraphLinksJoinTerminalNodes(children: seq<TreeNode>)
    ensures var g := LoadGraph(children);
            var ns := Flatten(children);
            forall l :: l in g.links ==> exists n :: (n in ns && n.relType != NotSet
              && l.linkType == LinkType(n.terminal.strength, n.terminal.effect)
              && -1 <= l.source < |g.nodes| && -1 <= l.target < |g.nodes|
              && (l.source >= 0 ==> g.nodes[l.source].id == n.terminal.presynapticId)
              && (l.source == -1 ==> !HasId(g.nodes, n.terminal.presynapticId))
              && (l.target >= 0 ==> g.nodes[l.target].id == n.terminal.postsynapticId)
              && (l.target == -1 ==> !HasId(g.nodes, n.terminal.postsynapticId)))
  {
    var g := LoadGraph(children);
    var ns := Flatten(children);
    LoadGraphLinks(children);
    forall l | l in g.links
      ensures exists n :: (n in ns && n.relType != NotSet
              && l.linkType == LinkType(n.terminal.strength, n.terminal.effect)
              && -1 <= l.source < |g.nodes| && -1 <= l.target < |g.nodes|
              && (l.source >= 0 ==> g.nodes[l.source].id == n.terminal.presynapticId)
              && (l.source == -1 ==> !HasId(g.nodes, n.terminal.presynapticId))
              && (l.target >= 0 ==> g.nodes[l.target].id == n.terminal.postsynapticId)
              && (l.target == -1 ==> !HasId(g.nodes, n.terminal.postsynapticId)))
    {
      var n :| n in ns && n.relType != NotSet && l == LinkOf(n, g.nodes);
    }
  }

  /** A link endpoint is -1 exactly when no visited neuron has that id:
      every node is collected before any link is resolved, so the visiting
      order of the terminal does not matter. */
  lemma MissingEndpointMeansUnvisitedId(children: seq<TreeNode>, n: Neuron)
    ensures var g := LoadGraph(children);
            var ns := Flatten(children);
            && (LinkOf(n, g.nodes).source == -1 <==> forall i :: 0 <= i < |ns| ==> ns[i].id != n.terminal.presynapticId)
            && (LinkOf(n, g.nodes).target == -1 <==> forall i :: 0 <= i < |ns| ==> ns[i].id != n.terminal.postsynapticId)
  {
    NodeIdsAreVisitedIds(children, n.terminal.presynapticId);
    NodeIdsAreVisitedIds(children, n.terminal.postsynapticId);
  }

  /** The distinct pass keeps every id and invents none. */
  lemma DistinctKeepsIds(all: seq<Node>, id: string)
    ensures HasId(Distinct(all), id) <==> HasId(all, id)
  {
    var d := Distinct(all);
    DistinctKeepsFirstOccurrences(all);
    if HasId(d, id) {
      var k :| 0 <= k < |d| && d[k].id == id;
      assert all[FindIndex(all, d[k].id)].id == id;
    }
    if HasId(all, id) {
      var j :| 0 <= j < |all| && all[j].id == id;
      assert HasId(d, all[j].id);
    }
  }

  /** The extracted nodes carry exactly the ids of the traversal. */
  lemma ExtractedIdsAreVisitedIds(children: seq<TreeNode>, id: string)
    ensures var ns := Flatten(children);
            HasId(ExtractNodes(children), id) <==> exists i :: 0 <= i < |ns| && ns[i].id == id
  {
    var all := ExtractNodes(children);
    var ns := Flatten(children);
    assert |all| == |ns|;
    forall i | 0 <= i < |ns| ensures all[i].id == ns[i].id {
      assert all[i] == Node(ns[i].id, ns[i].tag);
    }
  }

  /** A node exists for an id exactly when some visited neuron carries it. */
  lemma NodeIdsAreVisitedIds(children: seq<TreeNode>, id: string)
    ensures var ns := Flatten(children);
            HasId(LoadGraph(children).nodes, id) <==> exists i :: 0 <= i < |ns| && ns[i].id == id
  {
    DistinctKeepsIds(ExtractNodes(children), id);
    ExtractedIdsAreVisitedIds(children, id);
  }

  /** The neuron at visit `i` is a relative neuron and no earlier visited
      relative neuron describes a link with the same (source, target) pair. */
  predicate FirstRelativeWithPair(ns: seq<Neuron>, nodes: seq<Node>, i: int)
    requires 0 <= i < |ns|
  {
    && ns[i].relType != NotSet
    && forall j :: 0 <= j < i && ns[j].relType != NotSet ==> !SamePair(LinkOf(ns[j], nodes), LinkOf(ns[i], nodes))
  }

  /** The candidates of a traversal split at a relative neuron: those of
      the earlier visits, its own link, those of the later visits. */
  lemma CandidatesSplitAt(ns: seq<Neuron>, nodes: seq<Node>, i: int)
    requires 0 <= i < |ns| && ns[i].relType != NotSet
    ensures Candidates(ns, nodes)
      == Candidates(ns[..i], nodes) + [LinkOf(ns[i], nodes)] + Candidates(ns[i + 1..], nodes)
  {
    assert ns == ns[..i] + ns[i..];
    CandidatesAppend(ns[..i], ns[i..], nodes);
    assert ns[i..][0] == ns[i] && ns[i..][1..] == ns[i + 1..];
  }

  /** Such a neuron's link sits in the candidates after exactly the
      candidates of the earlier visits, none of which shares its pair. */
  lemma CandidatePosition(ns: seq<Neuron>, nodes: seq<Node>, i: int)
    requires 0 <= i < |ns| && FirstRelativeWithPair(ns, nodes, i)
    ensures var cands := Candidates(ns, nodes);
            var p := |Candidates(ns[..i], nodes)|;
            p < |cands| && cands[p] == LinkOf(ns[i], nodes) && FirstWithPair(cands, p)
  {
    var pre := Candidates(ns[..i], nodes);
    var cands := Candidates(ns, nodes);
    var p := |pre|;
    CandidatesSplitAt(ns, nodes, i);
    forall q | 0 <= q < p ensures !SamePair(cands[q], cands[p]) {
      assert cands[q] == pre[q];
      EarlierCandidate(ns, nodes, i, q);
    }
  }

  /** Each candidate of the visits before `i` is the link of one of them,
      so none shares the pair of the first relative visit `i`. */
  lemma EarlierCandidate(ns: seq<Neuron>, nodes: seq<Node>, i: int, q: int)
    requires 0 <= i < |ns| && FirstRelativeWithPair(ns, nodes, i)
    requires 0 <= q < |Candidates(ns[..i], nodes)|
    ensures !SamePair(Candidates(ns[..i], nodes)[q], LinkOf(ns[i], nodes))
  {
    var pre := Candidates(ns[..i], nodes);
    assert pre[q] in pre;
    var n :| n in ns[..i] && n.relType != NotSet && pre[q] == LinkOf(n, nodes);
    var j :| 0 <= j < i && ns[..i][j] == n;
    assert ns[j] == n;
  }

  /** Of the visited relative neurons sharing a pair, the first one visited
      is the one whose link the graph keeps, so its type wins. */
  lemma LoadGraphFirstSeenLinkWins(children: seq<TreeNode>)
    ensures var g := LoadGraph(children);
            var ns := Flatten(children);
            forall i :: 0 <= i < |ns| && FirstRelativeWithPair(ns, g.nodes, i) ==> LinkOf(ns[i], g.nodes) in g.links
  {
    var g := LoadGraph(children);
    var ns := Flatten(children);
    var cands := Candidates(ns, g.nodes);
    ExtractLinksIsAddAll(children, g.nodes, []);
    forall i | 0 <= i < |ns| && FirstRelativeWithPair(ns, g.nodes, i) ensures LinkOf(ns[i], g.nodes) in g.links {
      CandidatePosition(ns, g.nodes, i);
      AddAllFirstSeenWins([], cands, |Candidates(ns[..i], g.nodes)|);
    }
  }

  // ---------------------------------------------------------------------
  // Examples

  /** Tree A{A1}, B{B1} is visited as [A, B, A1, B1]. */
  lemma SiblingsFirstExample(a: Neuron, a1: Neuron, b: Neuron, b1: Neuron)
    ensures Flatten([TreeNode(a, [Leaf(a1)]), TreeNode(b, [Leaf(b1)])]) == [a, b, a1, b1]
  {
    var ta := TreeNode(a, [Leaf(a1)]);
    var tb := TreeNode(b, [Leaf(b1)]);
    assert Flatten([Leaf(a1)]) == [a1] by { assert Descend([Leaf(a1)]) == []; }
    assert Flatten([Leaf(b1)]) == [b1] by { assert Descend([Leaf(b1)]) == []; }
    assert Descend([tb]) == [b1];
    assert Descend([ta, tb]) == [a1, b1];
  }

  /** The same id at two depths, tagged "X" above and "Y" below, yields one
      node, tagged "X". */
  lemma FirstTagWinsExample(top: Neuron, deep: Neuron)
    requires top.id == "n1" && top.tag == "X" && deep.id == "n1" && deep.tag == "Y"
    ensures LoadGraph([TreeNode(top, [Leaf(deep)])]).nodes == [Node("n1", "X")]
  {
    var t := TreeNode(top, [Leaf(deep)]);
    assert Flatten([Leaf(deep)]) == [deep] by { assert Descend([Leaf(deep)]) == []; }
    assert Descend([t]) == [deep] by { assert [t][1..] == []; }
    assert Flatten([t]) == [top, deep];
    assert ExtractNodes([t]) == [Node("n1", "X"), Node("n1", "Y")];
    DistinctTwoSameIds(Node("n1", "X"), Node("n1", "Y"));
  }

  lemma DistinctTwoSameIds(x: Node, y: Node)
    requires x.id == y.id
    ensures Distinct([x, y]) == [x]
  {
    assert [x, y][..1] == [x];
    assert Distinct([x]) == [x] by { assert [x][..0] == []; }
    assert HasId([x], y.id) by { assert [x][0].id == y.id; }
  }

  /** A single root record "1" tagged "root": one node, no links. */
  lemma SingleRootExample(root: Neuron)
    requires root.id == "1" && root.tag == "root" && root.relType == NotSet
    ensures LoadGraph([Leaf(root)]) == GraphData([Node("1", "root")], [])
  {
    var cs := [Leaf(root)];
    assert cs[1..] == [];
    assert Flatten([]) == [] by { assert Descend([]) == []; }
    assert Descend(cs) == [];
    assert Flatten(cs) == [root];
    var all := ExtractNodes(cs);
    assert all == [Node("1", "root")];
    assert Distinct(all) == [Node("1", "root")] by {
      assert all[..0] == [];
    }
    var nodes := [Node("1", "root")];
    assert LinksOfLevel([], nodes, []) == [];
    assert LinksOfLevel(cs, nodes, []) == [];
    assert ExtractLinks([], nodes, []) == [] by {
      assert DescendLinks([], nodes, []) == [];
    }
    assert DescendLinks(cs, nodes, []) == DescendLinks([], nodes, []);
  }
}

=== FILE: neurons.dfy ===
/** The records the tree component works on: neurons fetched from the
    remote query service, the terminal (relation) payload a relative neuron
    carries, and the rendered tree nodes that wrap them. */
module Neurons {

  /** How a neuron was reached: as a root (`NotSet`) or through a terminal. */
  datatype RelativeType = NotSet | Presynaptic | Postsynaptic

  /** A directed relation between two neurons. `strength` and `effect` are
      numbers carried as strings: "1" is full strength, "-1" is inhibitory. */
  datatype Terminal = Terminal(
    id: string,
    version: int,
    presynapticId: string,
    postsynapticId: string,
    strength: string,
    effect: string
  )

  /** A neuron record. `terminal` is only read when `relType != NotSet`. */
  datatype Neuron = Neuron(
    id: string,
    tag: string,
    version: int,
    relType: RelativeType,
    terminal: Terminal
  )

  /** A rendered tree node (a neuron view model) and the children it owns.
      The same neuron id may recur at different depths. */
  datatype TreeNode = TreeNode(neuron: Neuron, children: seq<TreeNode>)

  /** A freshly created view model: its children are loaded lazily, so it
      starts with none. */
  function Leaf(n: Neuron): (t: TreeNode)
    ensures t.neuron == n && t.children == []
  {
    TreeNode(n, [])
  }

  /** Wraps every record of `ns` into a fresh view model, keeping the order. */
  function Wrap(ns: seq<Neuron>): (ts: seq<TreeNode>)
    ensures |ts| == |ns|
    ensures forall i :: 0 <= i < |ns| ==> ts[i] == Leaf(ns[i])
  {
    seq(|ns|, i requires 0 <= i < |ns| => Leaf(ns[i]))
  }

  /** Some rendered node of `children` wraps a neuron with this id. */
  predicate IsRendered(children: seq<TreeNode>, id: string)
  {
    exists k :: 0 <= k < |children| && children[k].neuron.id == id
  }
}

=== FILE: share_url.dfy ===
/** The shareable address of the tree: the page address without its query,
    followed by a single `avatarurl` parameter carrying the encoded avatar
    address. URL encoding belongs to the runtime library and is a parameter. */
module ShareUrl {

  const AvatarUrlKeyword: string := "?avatarurl="

  /** IndexOf for one character: its first position, or -1. */
  function IndexOf(s: string, c: char): (r: int)
    ensures -1 <= r < |s|
    ensures r >= 0 ==> s[r] == c && c !in s[..r]
    ensures r == -1 ==> c !in s
  {
    if s == [] then -1
    else if s[0] == c then 0
    else
      var r := IndexOf(s[1..], c);
      if r == -1 then -1
      else
        assert s[..r + 1] == [s[0]] + s[1..][..r];
        r + 1
  }

  /** The address up to, not including, its first '?'; the whole address when
      it has none. */
  function StripQuery(url: string): (p: string)
    ensures |p| <= |url| && p == url[..|p|]
    ensures '?' !in p
    ensures |p| == |url| || url[|p|] == '?'
  {
    var i := IndexOf(url, '?');
    url[..if i == -1 then |url| else i]
  }

  /** BuildAvatarUrl: the stripped page address, the keyword, and the
      encoded avatar address. */
  function BuildAvatarUrl(baseUrl: string, avatarUrl: string, urlEncode: string -> string): (r: string)
    ensures var p := StripQuery(baseUrl);
            |p| <= |r| && r[..|p|] == baseUrl[..|p|] && r[|p|..] == AvatarUrlKeyword + urlEncode(avatarUrl)
  {
    StripQuery(baseUrl) + AvatarUrlKeyword + urlEncode(avatarUrl)
  }

  /** A query already on the page address has no effect on the result. */
  lemma ExistingQueryIsDropped(page: string, query: string, avatarUrl: string, urlEncode: string -> string)
    requires '?' !in page
    ensures BuildAvatarUrl(page + "?" + query, avatarUrl, urlEncode) == BuildAvatarUrl(page, avatarUrl, urlEncode)
  {
    var full := page + "?" + query;
    assert full[|page|] == '?';
    assert full[..|page|] == page;
    assert IndexOf(full, '?') == |page|;
    assert IndexOf(page, '?') == -1;
  }

  /** Splitting the result at its first '?' gives back the stripped page
      address and the `avatarurl` parameter. */
  lemma BuildThenSplit(baseUrl: string, avatarUrl: string, urlEncode: string -> string)
    ensures var r := BuildAvatarUrl(baseUrl, avatarUrl, urlEncode);
            var i := IndexOf(r, '?');
            i == |StripQuery(baseUrl)| && r[..i] == StripQuery(baseUrl)
            && r[i + 1..] == "avatarurl=" + urlEncode(avatarUrl)
  {
    var p := StripQuery(baseUrl);
    var r := BuildAvatarUrl(baseUrl, avatarUrl, urlEncode);
    assert r[|p|] == '?';
    assert r[..|p|] == p;
    IndexOfIsFirst(r, '?', |p|);
    assert AvatarUrlKeyword[1..] == "avatarurl=";
    assert r[|p| + 1..] == r[|p|..][1..];
  }

  lemma IndexOfIsFirst(s: string, c: char, i: int)
    requires 0 <= i < |s| && s[i] == c && c !in s[..i]
    ensures IndexOf(s, c) == i
  {
  }

  /** Sharing from an already shared address replaces the avatar parameter. */
  lemma BuildIsIdempotentOnBase(baseUrl: string, first: string, second: string, urlEncode: string -> string)
    ensures BuildAvatarUrl(BuildAvatarUrl(baseUrl, first, urlEncode), second, urlEncode)
      == BuildAvatarUrl(baseUrl, second, urlEncode)
  {
    BuildThenSplit(baseUrl, first, urlEncode);
  }
}

=== FILE: sync.dfy ===
/** The incremental synchronisation of the rendered root list: the ordered
    fetch, the timer-driven poll that appends newly arrived neurons, the full
    reload, and the render-direction toggle. The remote query is an input:
    `Some(records)` when it answered, `None` when it threw. */
module Sync {
  import opened Wrappers
  import opened Neurons

  datatype RenderDirection = TopToBottom | BottomToTop

  /** The part of the component this module owns: the rendered roots and the
      running count of items appended by polling since the last reload. */
  datatype TreeState = TreeState(children: seq<TreeNode>, newItemsCount: int)

  /** What one timer tick produces: the new state, and whether the alert
      sound is requested (first batch of new items since the last reload). */
  datatype PollOutcome = PollOutcome(state: TreeState, playSound: bool)

  /** Flips the render direction. */
  function ToggleRenderDirection(d: RenderDirection): (r: RenderDirection)
    ensures r != d
  {
    if d == TopToBottom then BottomToTop else TopToBottom
  }

  lemma ToggleTwiceIsIdentity(d: RenderDirection)
    ensures ToggleRenderDirection(ToggleRenderDirection(d)) == d
  {
  }

  function Reverse<T>(s: seq<T>): (r: seq<T>)
    ensures |r| == |s|
    ensures forall i :: 0 <= i < |s| ==> r[i] == s[|s| - 1 - i]
  {
    if s == [] then [] else Reverse(s[1..]) + [s[0]]
  }

  /** The fetched records in display order: the fetch order itself for
      top-to-bottom, its element-wise reverse for bottom-to-top. */
  function Ordered(fetched: seq<Neuron>, d: RenderDirection): (r: seq<Neuron>)
    ensures |r| == |fetched|
    ensures d == TopToBottom ==> r == fetched
    ensures d == BottomToTop ==> forall i :: 0 <= i < |fetched| ==> r[i] == fetched[|fetched| - 1 - i]
  {
    if d == BottomToTop then Reverse(fetched) else fetched
  }

  /** FindLastIndex on the id: the position of the last record with this id,
      or -1 when there is none. */
  function FindLastIndex(ns: seq<Neuron>, id: string): (r: int)
    ensures -1 <= r < |ns|
    ensures r >= 0 ==> ns[r].id == id
    ensures forall k :: r < k < |ns| ==> ns[k].id != id
  {
    if ns == [] then -1
    else if ns[|ns| - 1].id == id then |ns| - 1
    else FindLastIndex(ns[..|ns| - 1], id)
  }

  /** The record at index `i` counts as new: it lies after the cursor and its
      id is not among the children rendered before this tick. */
  predicate Qualifies(ns: seq<Neuron>, i: int, cursor: int, children: seq<TreeNode>)
    requires 0 <= i < |ns|
  {
    i > cursor && !IsRendered(children, ns[i].id)
  }

  /** The records from index `i` on that qualify, in fetched order. The test
      is made against `children` as they stand before anything is appended,
      so two qualifying records with the same id are both kept. */
  function SelectNewFrom(ns: seq<Neuron>, i: nat, cursor: int, children: seq<TreeNode>): (r: seq<Neuron>)
    requires i <= |ns|
    ensures |r| <= |ns| - i
    ensures forall k :: 0 <= k < |r| ==> !IsRendered(children, r[k].id)
    decreases |ns| - i
  {
    if i == |ns| then []
    else
      var rest := SelectNewFrom(ns, i + 1, cursor, children);
      if Qualifies(ns, i, cursor, children) then [ns[i]] + rest else rest
  }

  /** The qualifying indices from `i` on, in increasing order: the positions
      of the fetch that a tick appends. */
  function QualifyingIndices(ns: seq<Neuron>, i: nat, cursor: int, children: seq<TreeNode>): (idx: seq<nat>)
    requires i <= |ns|
    ensures forall k :: 0 <= k < |idx| ==> i <= idx[k] < |ns| && Qualifies(ns, idx[k], cursor, children)
    ensures forall k, m :: 0 <= k < m < |idx| ==> idx[k] < idx[m]
    ensures forall j :: i <= j < |ns| && Qualifies(ns, j, cursor, children) ==> j in idx
    decreases |ns| - i
  {
    if i == |ns| then []
    else
      var rest := QualifyingIndices(ns, i + 1, cursor, children);
      if Qualifies(ns, i, cursor, children) then [i] + rest else rest
  }

  /** The records of `ns` at the positions `idx`, in the order of `idx`. */
  function Pick(ns: seq<Neuron>, idx: seq<nat>): (r: seq<Neuron>)
    requires forall k :: 0 <= k < |idx| ==> idx[k] < |ns|
    ensures |r| == |idx|
    ensures forall k :: 0 <= k < |idx| ==> r[k] == ns[idx[k]]
  {
    if idx == [] then [] else [ns[idx[0]]] + Pick(ns, idx[1..])
  }

  /** One step of the selection when the record at `i` qualifies. */
  lemma IndexedStepTaken(ns: seq<Neuron>, i: nat, cursor: int, children: seq<TreeNode>)
    requires i < |ns| && Qualifies(ns, i, cursor, children)
    requires SelectNewFrom(ns, i + 1, cursor, children) == Pick(ns, QualifyingIndices(ns, i + 1, cursor, children))
    ensures SelectNewFrom(ns, i, cursor, children) == Pick(ns, QualifyingIndices(ns, i, cursor, children))
  {
    var restIdx := QualifyingIndices(ns, i + 1, cursor, children);
    assert QualifyingIndices(ns, i, cursor, children) == [i] + restIdx;
    assert ([i] + restIdx)[1..] == restIdx;
  }

  /** One step of the selection when the record at `i` does not qualify. */
  lemma IndexedStepSkipped(ns: seq<Neuron>, i: nat, cursor: int, children: seq<TreeNode>)
    requires i < |ns| && !Qualifies(ns, i, cursor, children)
    requires SelectNewFrom(ns, i + 1, cursor, children) == Pick(ns, QualifyingIndices(ns, i + 1, cursor, children))
    ensures SelectNewFrom(ns, i, cursor, children) == Pick(ns, QualifyingIndices(ns, i, cursor, children))
  {
  }

  /** The selection reads the fetch at the qualifying indices, one record per
      index and in index order: order and repeats are those of the fetch. */
  lemma {:induction false} SelectNewFromIsIndexed(ns: seq<Neuron>, i: nat, cursor: int, children: seq<TreeNode>)
    requires i <= |ns|
    ensures SelectNewFrom(ns, i, cursor, children) == Pick(ns, QualifyingIndices(ns, i, cursor, children))
    decreases |ns| - i
  {
    if i < |ns| {
      SelectNewFromIsIndexed(ns, i + 1, cursor, children);
      if Qualifies(ns, i, cursor, children) {
        IndexedStepTaken(ns, i, cursor, children);
      } else {
        IndexedStepSkipped(ns, i, cursor, children);
      }
    }
  }

  /** A record is selected exactly when it sits at a qualifying index; the
      selection is empty exactly when no index qualifies. */
  lemma SelectNewFromExactlyQualifying(ns: seq<Neuron>, i: nat, cursor: int, children: seq<TreeNode>)
    requires i <= |ns|
    ensures var r := SelectNewFrom(ns, i, cursor, children);
            && (forall x :: x in r ==> exists j :: i <= j < |ns| && ns[j] == x && Qualifies(ns, j, cursor, children))
            && (forall j :: i <= j < |ns| && Qualifies(ns, j, cursor, children) ==> ns[j] in r)
            && (r == [] <==> forall j :: i <= j < |ns| ==> !Qualifies(ns, j, cursor, children))
  {
    SelectNewFromIsIndexed(ns, i, cursor, children);
    var idx := QualifyingIndices(ns, i, cursor, children);
    var r := SelectNewFrom(ns, i, cursor, children);
    forall x | x in r ensures exists j :: i <= j < |ns| && ns[j] == x && Qualifies(ns, j, cursor, children) {
      var k :| 0 <= k < |r| && r[k] == x;
      assert Qualifies(ns, idx[k], cursor, children);
    }
    forall j | i <= j < |ns| && Qualifies(ns, j, cursor, children) ensures ns[j] in r {
      var k :| 0 <= k < |idx| && idx[k] == j;
      assert r[k] == ns[j];
    }
  }

  function SelectNew(ns: seq<Neuron>, cursor: int, children: seq<TreeNode>): seq<Neuron>
  {
    SelectNewFrom(ns, 0, cursor, children)
  }

  /** The FindLastIndex cursor: where, in the ordered fetch, the id of the
      last rendered child last occurs (-1 when it does not occur). */
  function Cursor(ns: seq<Neuron>, children: seq<TreeNode>): (c: int)
    requires |children| > 0
    ensures -1 <= c < |ns|
    ensures c >= 0 ==> ns[c].id == children[|children| - 1].neuron.id
    ensures forall j :: c < j < |ns| ==> ns[j].id != children[|children| - 1].neuron.id
  {
    FindLastIndex(ns, children[|children| - 1].neuron.id)
  }

  /** The records a tick appends to a non-empty child list. */
  function Arrivals(s: TreeState, fetched: seq<Neuron>, d: RenderDirection): (r: seq<Neuron>)
    requires |s.children| > 0
    ensures |r| <= |fetched|
    ensures forall k :: 0 <= k < |r| ==> !IsRendered(s.children, r[k].id)
  {
    var ns := Ordered(fetched, d);
    SelectNew(ns, Cursor(ns, s.children), s.children)
  }

  /** One timer tick. Nothing happens when no child is rendered or the fetch
      failed; otherwise the arrivals are appended as fresh view models, after
      the children already rendered, and counted. */
  function Poll(s: TreeState, fetched: Option<seq<Neuron>>, d: RenderDirection): (r: PollOutcome)
    ensures |s.children| == 0 || fetched.None? ==> r == PollOutcome(s, false)
    ensures |s.children| > 0 && fetched.Some? ==>
      r.state.children == s.children + Wrap(Arrivals(s, fetched.value, d))
    ensures r.state.newItemsCount == s.newItemsCount + (|r.state.children| - |s.children|)
    ensures forall k :: |s.children| <= k < |r.state.children| ==>
      r.state.children[k].children == [] && !IsRendered(s.children, r.state.children[k].neuron.id)
    ensures r.playSound <==> |r.state.children| > |s.children| && s.newItemsCount == 0
  {
    if |s.children| == 0 || fetched.None? then PollOutcome(s, false)
    else
      var arrivals := Arrivals(s, fetched.value, d);
      if |arrivals| > 0 then
        var children' := s.children + Wrap(arrivals);
        assert forall k :: |s.children| <= k < |children'| ==> children'[k] == Leaf(arrivals[k - |s.children|]);
        PollOutcome(TreeState(children', s.newItemsCount + |arrivals|), s.newItemsCount == 0)
      else PollOutcome(s, false)
  }

  /** Reload: the children are cleared, then replaced by the ordered fetch
      and the counter is reset. The list is cleared before the fetch and the
      counter reset after it, so a failed fetch leaves no children and the
      counter as it was. */
  function Reload(s: TreeState, fetched: Option<seq<Neuron>>, d: RenderDirection): (r: TreeState)
    ensures fetched.Some? ==> |r.children| == |fetched.value| && r.newItemsCount == 0
    ensures fetched.Some? ==> forall i :: 0 <= i < |fetched.value| ==>
      r.children[i] == Leaf(if d == TopToBottom then fetched.value[i] else fetched.value[|fetched.value| - 1 - i])
    ensures fetched.None? ==> r.children == [] && r.newItemsCount == s.newItemsCount
  {
    if fetched.Some? then TreeState(Wrap(Ordered(fetched.value, d)), 0)
    else TreeState([], s.newItemsCount)
  }

  /** The view models appended after `prefix` wrap exactly the neurons of
      `arrivals`. */
  lemma AppendedLeaves(prefix: seq<TreeNode>, arrivals: seq<Neuron>, x: Neuron)
    ensures var all := prefix + Wrap(arrivals);
            (exists k :: |prefix| <= k < |all| && all[k] == Leaf(x)) <==> x in arrivals
  {
    var all := prefix + Wrap(arrivals);
    if x in arrivals {
      var m :| 0 <= m < |arrivals| && arrivals[m] == x;
      assert all[|prefix| + m] == Leaf(x);
    }
    if exists k :: |prefix| <= k < |all| && all[k] == Leaf(x) {
      var k :| |prefix| <= k < |all| && all[k] == Leaf(x);
      assert all[k] == Wrap(arrivals)[k - |prefix|];
      assert arrivals[k - |prefix|] == x;
    }
  }

  /** A neuron is appended by a tick exactly when it sits at a qualifying
      index of the ordered fetch. */
  lemma PollAppendsExactlyQualifying(s: TreeState, fetched: seq<Neuron>, d: RenderDirection, x: Neuron)
    requires |s.children| > 0
    ensures var ns := Ordered(fetched, d);
            var r := Poll(s, Some(fetched), d).state;
            (exists k :: |s.children| <= k < |r.children| && r.children[k] == Leaf(x))
            <==> (exists j :: 0 <= j < |ns| && ns[j] == x && Qualifies(ns, j, Cursor(ns, s.children), s.children))
  {
    var ns := Ordered(fetched, d);
    var arrivals := Arrivals(s, fetched, d);
    SelectNewFromExactlyQualifying(ns, 0, Cursor(ns, s.children), s.children);
    assert Poll(s, Some(fetched), d).state.children == s.children + Wrap(arrivals);
    AppendedLeaves(s.children, arrivals, x);
  }

  /** The roots a tick appends wrap the records at the qualifying indices of
      the ordered fetch, in index order: the k-th appended root wraps the
      record at the k-th qualifying index. */
  lemma PollAppendsInFetchedOrder(s: TreeState, fetched: seq<Neuron>, d: RenderDirection)
    requires |s.children| > 0
    ensures var ns := Ordered(fetched, d);
            var idx := QualifyingIndices(ns, 0, Cursor(ns, s.children), s.children);
            Poll(s, Some(fetched), d).state.children == s.children + Wrap(Pick(ns, idx))
  {
    var ns := Ordered(fetched, d);
    SelectNewFromIsIndexed(ns, 0, Cursor(ns, s.children), s.children);
  }

  /** Two identical new records in one fetch are both appended. */
  lemma DuplicateArrivalsBothAppended(a: Neuron, x: Neuron)
    requires a.id == "A" && x.id == "X"
    ensures Poll(TreeState([Leaf(a)], 0), Some([a, x, x]), TopToBottom).state.children == [Leaf(a), Leaf(x), Leaf(x)]
  {
    var s := TreeState([Leaf(a)], 0);
    var ns := [a, x, x];
    assert Ordered(ns, TopToBottom) == ns;
    assert ns[..2] == [a, x] && ns[..2][..1] == [a];
    assert FindLastIndex([a], "A") == 0;
    assert FindLastIndex([a, x], "A") == 0;
    assert Cursor(ns, s.children) == 0;
    assert !IsRendered(s.children, "X");
    assert SelectNewFrom(ns, 3, 0, s.children) == [];
    assert SelectNewFrom(ns, 2, 0, s.children) == [x];
    assert SelectNewFrom(ns, 1, 0, s.children) == [x, x];
    assert SelectNewFrom(ns, 0, 0, s.children) == [x, x];
    assert Arrivals(s, ns, TopToBottom) == [x, x];
    assert Wrap([x, x]) == [Leaf(x), Leaf(x)];
  }

  /** When every fetched id is already rendered, a tick appends nothing. */
  lemma PollAllRenderedAppendsNothing(s: TreeState, fetched: seq<Neuron>, d: RenderDirection)
    requires forall i :: 0 <= i < |fetched| ==> IsRendered(s.children, fetched[i].id)
    ensures Poll(s, Some(fetched), d) == PollOutcome(s, false)
  {
    if |s.children| > 0 {
      var ns := Ordered(fetched, d);
      SelectNewFromExactlyQualifying(ns, 0, Cursor(ns, s.children), s.children);
    }
  }

  /** Appending view models keeps every rendered id rendered and renders
      the appended ones. */
  lemma RenderedAfterAppend(children: seq<TreeNode>, arrivals: seq<Neuron>, id: string)
    requires IsRendered(children, id) || exists m :: 0 <= m < |arrivals| && arrivals[m].id == id
    ensures IsRendered(children + Wrap(arrivals), id)
  {
    var all := children + Wrap(arrivals);
    if IsRendered(children, id) {
      var k :| 0 <= k < |children| && children[k].neuron.id == id;
      assert all[k] == children[k];
    } else {
      var m :| 0 <= m < |arrivals| && arrivals[m].id == id;
      assert all[|children| + m].neuron == arrivals[m];
    }
  }

  /** Once the arrivals are appended, the cursor moves to or past the last
      of them, and every record after it is rendered: nothing qualifies. */
  lemma {:induction false} NothingQualifiesAfterAppend(ns: seq<Neuron>, children: seq<TreeNode>)
    requires |children| > 0
    requires |SelectNew(ns, Cursor(ns, children), children)| > 0
    ensures var arrivals := SelectNew(ns, Cursor(ns, children), children);
            var children' := children + Wrap(arrivals);
            SelectNew(ns, Cursor(ns, children'), children') == []
  {
    var cursor := Cursor(ns, children);
    var arrivals := SelectNew(ns, cursor, children);
    var children' := children + Wrap(arrivals);
    SelectNewFromExactlyQualifying(ns, 0, cursor, children);
    var last := arrivals[|arrivals| - 1];
    assert last in arrivals;
    assert children'[|children'| - 1].neuron == last;
    var j :| 0 <= j < |ns| && ns[j] == last && Qualifies(ns, j, cursor, children);
    var cursor' := Cursor(ns, children');
    assert cursor < j <= cursor';
    forall i | 0 <= i < |ns|
      ensures !Qualifies(ns, i, cursor', children')
    {
      if i > cursor' {
        if !IsRendered(children, ns[i].id) {
          assert Qualifies(ns, i, cursor, children);
          assert ns[i] in arrivals;
        }
        RenderedAfterAppend(children, arrivals, ns[i].id);
      }
    }
    SelectNewFromExactlyQualifying(ns, 0, cursor', children');
  }

  /** Polling twice against an unchanged remote ordering: the second tick
      appends nothing and leaves the state as the first one left it. */
  lemma {:induction false} PollIsIdempotent(s: TreeState, fetched: Option<seq<Neuron>>, d: RenderDirection)
    ensures var once := Poll(s, fetched, d).state;
            Poll(once, fetched, d) == PollOutcome(once, false)
  {
    if |s.children| > 0 && fetched.Some? {
      var ns := Ordered(fetched.value, d);
      if |Arrivals(s, fetched.value, d)| > 0 {
        NothingQualifiesAfterAppend(ns, s.children);
      }
    }
  }

  /** A tick straight after a reload from the same remote ordering appends
      nothing: the cursor lands on the last record. */
  lemma ReloadThenPollAppendsNothing(s: TreeState, fetched: seq<Neuron>, d: RenderDirection)
    ensures var reloaded := Reload(s, Some(fetched), d);
            Poll(reloaded, Some(fetched), d) == PollOutcome(reloaded, false)
  {
    var reloaded := Reload(s, Some(fetched), d);
    if |fetched| > 0 {
      var ns := Ordered(fetched, d);
      SelectNewFromExactlyQualifying(ns, 0, Cursor(ns, reloaded.children), reloaded.children);
    }
  }

  /** The state after a run of ticks, each given as its fetch outcome and
      the render direction in force when it fires. */
  function PollAll(s: TreeState, ticks: seq<(Option<seq<Neuron>>, RenderDirection)>): TreeState
    decreases |ticks|
  {
    if ticks == [] then s else PollAll(Poll(s, ticks[0].0, ticks[0].1).state, ticks[1..])
  }

  /** Ticks only ever extend the rendered roots: whatever the fetches, and
      however the render direction is toggled between ticks, the roots
      rendered before stay, in order, as a prefix, and the counter grows by
      exactly the number of roots added. */
  lemma {:induction false} PollsOnlyAppend(s: TreeState, ticks: seq<(Option<seq<Neuron>>, RenderDirection)>)
    ensures var r := PollAll(s, ticks);
            |s.children| <= |r.children| && r.children[..|s.children|] == s.children
            && r.newItemsCount == s.newItemsCount + (|r.children| - |s.children|)
    decreases |ticks|
  {
    if ticks != [] {
      var next := Poll(s, ticks[0].0, ticks[0].1).state;
      PollsOnlyAppend(next, ticks[1..]);
      var r := PollAll(next, ticks[1..]);
      assert r.children[..|next.children|][..|s.children|] == r.children[..|s.children|];
    }
  }

  /** The neurons the rendered roots wrap, in order. */
  function RenderedNeurons(children: seq<TreeNode>): (ns: seq<Neuron>)
    ensures |ns| == |children|
    ensures forall k :: 0 <= k < |children| ==> ns[k] == children[k].neuron
  {
    seq(|children|, k requires 0 <= k < |children| => children[k].neuron)
  }

  /** A record that arrives in front of the rendered ones is never appended by
      a tick, even when its id is new: the cursor sits on the last rendered
      record, at the end of the fetch, and only records after the cursor
      qualify. */
  lemma FrontArrivalNeverAppended(s: TreeState, x: Neuron)
    requires |s.children| > 0
    ensures Poll(s, Some([x] + RenderedNeurons(s.children)), TopToBottom) == PollOutcome(s, false)
  {
    var ns := [x] + RenderedNeurons(s.children);
    assert Ordered(ns, TopToBottom) == ns;
    assert ns[|ns| - 1] == s.children[|s.children| - 1].neuron;
    var cursor := Cursor(ns, s.children);
    assert cursor == |ns| - 1;
    SelectNewFromExactlyQualifying(ns, 0, cursor, s.children);
  }

  /** Bottom to top, a record the remote adds at the end of its ordering
      comes first in the ordered fetch, before the last rendered record, so
      no tick appends it. */
  lemma EndArrivalNeverAppendedBottomToTop(s: TreeState, remote: seq<Neuron>, x: Neuron)
    requires |s.children| > 0
    requires Reverse(remote) == RenderedNeurons(s.children)
    ensures Poll(s, Some(remote + [x]), BottomToTop) == PollOutcome(s, false)
  {
    var ns := [x] + RenderedNeurons(s.children);
    assert Ordered(remote + [x], BottomToTop) == ns by {
      var o := Ordered(remote + [x], BottomToTop);
      forall i | 0 <= i < |ns| ensures o[i] == ns[i] {
        if i > 0 {
          assert o[i] == remote[|remote| - i];
          assert Reverse(remote)[i - 1] == remote[|remote| - i];
        }
      }
    }
    assert Arrivals(s, remote + [x], BottomToTop) == Arrivals(s, ns, TopToBottom);
    FrontArrivalNeverAppended(s, x);
  }

  /** Bottom to top, after a reload of [A, B, C] (rendered [C, B, A]), a
      record the remote puts at the front, [X, A, B, C], is appended: it comes
      last in the ordered fetch, after the last rendered record. */
  lemma FrontArrivalAppendedBottomToTop(s: TreeState, a: Neuron, b: Neuron, c: Neuron, x: Neuron)
    requires a.id == "A" && b.id == "B" && c.id == "C" && x.id == "X"
    ensures var s' := Reload(s, Some([a, b, c]), BottomToTop);
            Poll(s', Some([x, a, b, c]), BottomToTop).state.children == s'.children + [Leaf(x)]
  {
    ReloadBottomToTopExample(s, a, b, c);
    FrontArrivalIsLastBottomToTop(a, b, c, x);
    assert Wrap([x]) == [Leaf(x)];
  }

  /** The arrivals of that tick: X alone. */
  lemma FrontArrivalIsLastBottomToTop(a: Neuron, b: Neuron, c: Neuron, x: Neuron)
    requires a.id == "A" && b.id == "B" && c.id == "C" && x.id == "X"
    ensures Arrivals(TreeState([Leaf(c), Leaf(b), Leaf(a)], 0), [x, a, b, c], BottomToTop) == [x]
  {
    var children := [Leaf(c), Leaf(b), Leaf(a)];
    var ns := Ordered([x, a, b, c], BottomToTop);
    assert ns == [c, b, a, x];
    assert ns[2].id == "A" && ns[3].id == "X";
    assert Cursor(ns, children) == 2;
    assert !IsRendered(children, "X");
    assert SelectNewFrom(ns, 3, 2, children) == [x];
    assert SelectNewFrom(ns, 2, 2, children) == [x];
    assert SelectNewFrom(ns, 1, 2, children) == [x];
  }

  /** A tick together with the outcome of its alert-sound call. The call is
      awaited before the arrivals are counted and appended, in the same try
      block, so a call that throws drops the tick: the state stays as it was.
      When the counter is already positive the call is not made. */
  function Tick(s: TreeState, fetched: Option<seq<Neuron>>, d: RenderDirection, soundCallReturns: bool): (r: PollOutcome)
    ensures r.playSound == Poll(s, fetched, d).playSound
    ensures soundCallReturns || s.newItemsCount != 0 ==> r == Poll(s, fetched, d)
    ensures !soundCallReturns && s.newItemsCount == 0 ==> r.state == s
  {
    var p := Poll(s, fetched, d);
    if p.playSound && !soundCallReturns then PollOutcome(s, true) else p
  }

  /** The state after a run of ticks, each with its fetch outcome, render
      direction and whether its sound call returned. */
  function TickAll(s: TreeState, ticks: seq<(Option<seq<Neuron>>, RenderDirection, bool)>): TreeState
    decreases |ticks|
  {
    if ticks == [] then s else TickAll(Tick(s, ticks[0].0, ticks[0].1, ticks[0].2).state, ticks[1..])
  }

  /** While the counter is 0 and every sound call throws, no tick ever
      appends anything: each retries the sound first and is dropped. */
  lemma {:induction false} FailingSoundStallsTicks(s: TreeState, ticks: seq<(Option<seq<Neuron>>, RenderDirection, bool)>)
    requires s.newItemsCount == 0
    requires forall k :: 0 <= k < |ticks| ==> !ticks[k].2
    ensures TickAll(s, ticks) == s
    decreases |ticks|
  {
    if ticks != [] {
      assert !ticks[0].2;
      FailingSoundStallsTicks(s, ticks[1..]);
    }
  }

  /** Rendered roots [A, B], remote now [A, B, C, D]: C and D are appended in
      that order, the counter grows by two and the sound is requested. */
  lemma PollAppendsArrivalsExample(a: Neuron, b: Neuron, c: Neuron, e: Neuron)
    requires a.id == "A" && b.id == "B" && c.id == "C" && e.id == "D"
    ensures var r := Poll(TreeState([Leaf(a), Leaf(b)], 0), Some([a, b, c, e]), TopToBottom);
            r == PollOutcome(TreeState([Leaf(a), Leaf(b), Leaf(c), Leaf(e)], 2), true)
  {
    var s := TreeState([Leaf(a), Leaf(b)], 0);
    var ns := [a, b, c, e];
    assert Ordered(ns, TopToBottom) == ns;
    assert ns[1].id == "B";
    assert Cursor(ns, s.children) == 1;
    assert !IsRendered(s.children, "C") && !IsRendered(s.children, "D");
    assert SelectNewFrom(ns, 4, 1, s.children) == [];
    assert SelectNewFrom(ns, 3, 1, s.children) == [e];
    assert SelectNewFrom(ns, 2, 1, s.children) == [c, e];
    assert SelectNewFrom(ns, 1, 1, s.children) == [c, e];
    assert Arrivals(s, ns, TopToBottom) == [c, e];
    assert Wrap([c, e]) == [Leaf(c), Leaf(e)];
  }

  /** A bottom-to-top reload of [A, B, C] renders [C, B, A]. */
  lemma ReloadBottomToTopExample(s: TreeState, a: Neuron, b: Neuron, c: Neuron)
    ensures Reload(s, Some([a, b, c]), BottomToTop) == TreeState([Leaf(c), Leaf(b), Leaf(a)], 0)
  {
  }
}

=== FILE: wrappers.dfy ===
/** An optional value, used where the component works with a
    value that may be missing (a null reference, a fetch that threw). */
module Wrappers {

  datatype Option<+T> = None | Some(value: T)
}
